=== FILE: README.md ===
# Transaction reports, services and summaries — a Dafny model

This project models the aggregation logic of a personal-finance utility.
The utility reads a table of bank transactions and computes several views of it:

- spending per category, per day of the week, and on workdays versus weekends (`src/reports.py`);
- the expenses of one month over a fixed list of categories, and the cashback of one month (`src/services.py`);
- three searches over the transaction list (`src/services.py`);
- the dashboard summaries (`src/utils.py`): greeting, month-to-date range, per-card totals, a sorted list of expenses, and expense and income breakdowns by category.

A transaction is a record with these fields:

- a timestamp;
- a signed amount (negative for an expense);
- a cashback amount;
- a category;
- a description;
- an optional card number.

Money is held in integer kopecks, so `round(x, 2)` of a sum is the identity.

## Modules

- `seqs.dfy` (`Seqs`): the row filter (`df[mask]`, a list comprehension with an `if`) and the column sum, with their laws.
- `text.dfy` (`Text`): `str.lower()`, substring test, code-point string order, zero-padded digits.
- `calendar.dfy` (`Calendar`): dates, timestamps, the day of the week, and the `strftime` texts `%Y-%m` and `%d.%m.%Y`.
- `ledger.dfy` (`Ledger`): the `Transaction` record, and `groupby(...).sum()` as an association list sorted by key.
  - Each group is the sum of its own rows.
  - The keys are exactly the keys present.
  - The groups add up to the total.
- `sorting.dfy` (`Sorting`): Python's stable `sorted` with a key tuple `(number, text)`. It is proved sorted, a permutation, stable, and sum-preserving.
- `reports.dfy` (`Reports`): the three reports of `src/reports.py`.
  - Each report is written as the source computes it.
  - Each is proved equal to a row-by-row definition (`CategorySpend`, `DaySpend`, `TotalSpend`).
- `phone.dfy` (`Phone`): the phone-number regular expression of `search_phone_numbers`.
  - It is written as a list of pieces, each a character class with a repetition range, plus `re.search` semantics.
  - A text that holds a match contains at least eleven digits, and four of them in a row.
- `services.dfy` (`Services`): `profitable_categories`, `investment_bank` and the three searches.
- `utils.dfy` (`Utils`): greeting, date range, card summaries and top transactions. The two loops that append to a list are methods with loop invariants. It also holds the expense and income breakdowns.

## Where the model follows the code rather than its documentation or tests

- **`profitable_categories`** sums the absolute expense amounts per category for the month. It does not sum cashback.
- **`investment_bank`** sums the cashback of every row whose `%Y-%m` text equals the month.
  - It computes no round-up.
  - It ignores the threshold.
  - It applies no expense filter.
- **`get_top_transactions`** returns every expense in the window, with no top-N cut.
  - Equal amounts are ordered by the text "DD.MM.YYYY", so the day is compared before the month and the year (`Utils.TopDateOrderIsTextual`).
- **Tests that contradict the code** are not followed; the model follows the code. Examples:
  - A profitable-categories total that counts a September expense in October.
  - An `investment_bank` result of 38.0, where the code's October cashback sum is 37.18.
  - Phone numbers such as "+7 921 11-22-33" expected to be found. The pattern's final `\d{4}` needs four digits in a row, and these numbers have none (`Phone.GroupedNumbersNotFound`).

## Model

| member | source | states |
|---|---|---|
| Reports.SpendingByCategory | src/reports.py:7-14 | echoes the category; the total is the absolute expense sum of the rows in the cutoff window whose category equals the argument exactly |
| Reports.CategorySpend | src/reports.py:11-13 | a category's expense total is between 0 and the expense total of all rows |
| Reports.SpendingByCategoryAppend | src/reports.py:12-13 | a row adds its absolute amount when it is an expense of the category, and nothing otherwise (0 or positive amounts never count) |
| Reports.SpendingByCategoryAbsent | src/reports.py:11-14 | a category no row carries (or an empty table) gives total 0 with the category echoed |
| Reports.CutoffAfterAll | src/reports.py:9-10 | a cutoff on or after every row filters nothing: all three reports equal their no-cutoff results |
| Reports.CutoffBeforeAll | src/reports.py:9-10 | a cutoff before every row leaves nothing: every report value is 0 |
| Reports.Window | src/reports.py:9-10 | the cutoff filter keeps the rows' order: its result is a subsequence of the input |
| Reports.WindowMembership | src/reports.py:9-10 | with a cutoff, a row is kept iff it is dated on or before the cutoff day |
| Reports.SpendingByWeekday | src/reports.py:16-24 | keys are exactly Monday..Sunday in order; each value is that day's expense total in the window (0 for a day without expenses) |
| Reports.DaySpend | src/reports.py:20-21 | a day's expense total is between 0 and the whole expense total |
| Reports.DaysCoverTotal | src/reports.py:21-23 | the seven days partition the expenses: their totals add up to the expense total |
| Reports.WeekdayConservation | src/reports.py:20-23 | the seven weekday values add up to the category-independent expense total of the window |
| Reports.SpendingByWorkday | src/reports.py:26-37 | keys are exactly "Рабочий день" and "Выходной день"; both values are non-negative |
| Reports.WeekendRows | src/reports.py:30-33 | the weekend mask sums Saturday and Sunday, the workday mask sums Monday to Friday |
| Reports.WorkdayMatchesWeekdays | src/reports.py:30-37 | weekend = Saturday + Sunday, workday = Monday..Friday of the weekday report, and the two add up to the expense total |
| Reports.ExpenseRows | src/reports.py:12-13 | the masked sum of the expense rows is minus their total spend |
| Calendar.DayOfWeek | src/reports.py:31 | `dayofweek` lies in 0..6 (Monday = 0) |
| Calendar.DayName | src/reports.py:21 | `day_name()` is one of the seven English weekday names |
| Calendar.NextDay | src/reports.py:21 | the calendar day after a valid date, rolling over month and year ends: strictly later, at most one year on, and itself valid below year 9999 |
| Calendar.DayOfWeekNextDay | src/reports.py:21 | every day, month ends and year ends included, is followed by the next day of the week; with the fixture days this pins the weekday of every date |
| Calendar.FixtureDays | src/reports.py:21 | 2023-10-01 and 2023-10-15 are Sundays, 2023-10-10 a Tuesday, 2023-09-20 a Wednesday |
| Calendar.YearMonthText | src/services.py:27 | `strftime('%Y-%m')` is seven characters with the dash at index 4 |
| Calendar.DayMonthYearText | src/utils.py:110 | `strftime('%d.%m.%Y')` is ten characters with dots at indices 2 and 5 |
| Calendar.YearMonthTextSameMonth | src/services.py:27 | two valid dates print the same `%Y-%m` text iff they are in the same year and month |
| Calendar.DayMonthYearTextInjective | src/utils.py:110 | distinct valid dates print distinct `%d.%m.%Y` texts |
| Ledger.GroupSum | src/utils.py:181-185 | `groupby(...).sum()` as an association list; what it holds is stated by the five lemmas below |
| Ledger.GroupSumLookup | src/reports.py:21 | a group read back with a 0 default is the sum of exactly the rows with that key |
| Ledger.GroupSumKeys | src/utils.py:181-185 | the group keys are exactly the keys that occur in the rows |
| Ledger.GroupSumSorted | src/utils.py:181-185 | group keys are strictly ascending, hence distinct |
| Ledger.GroupSumTotal | src/utils.py:181-185 | the groups add up to the column total |
| Ledger.GroupSumEntries | src/utils.py:181-185 | each group holds the sum of its rows and some row carries its key |
| Ledger.GroupSumSign | src/utils.py:186 | groups of all-positive (all-negative) rows are positive (negative) |
| Sorting.SortBy | src/utils.py:90-92 | Python's stable `sorted` with a key; the output has the input's length, and the lemmas below state order, permutation, stability and sums |
| Sorting.SortBySorted | src/utils.py:91 | `sorted` output is ordered by the key tuple |
| Sorting.SortByMultiset | src/utils.py:91 | `sorted` output is a permutation of its input |
| Sorting.SortByStable | src/utils.py:90-92 | `sorted` is stable: the elements that share a sort key keep their input order |
| Sorting.SortBySum | src/utils.py:91 | sorting does not change a column sum |
| Sorting.SortByDistinct | src/utils.py:187-188 | sorting keeps distinct names distinct |
| Services.ProfitableCategories | src/services.py:7-21 | keys are exactly the seven listed categories in order; each value is that category's expense total over the rows of the given year and month |
| Services.ProfitableMatchesReport | src/services.py:10-21 | each value equals `spending_by_category` over the month's rows and is non-negative |
| Services.ProfitableIgnoresRow | src/services.py:10-12 | an income row or a row of another month changes no value |
| Services.ProfitableCountsExpense | src/services.py:12-14 | an expense of the month in a listed category raises that category by its absolute amount |
| Services.InvestmentBank | src/services.py:23-30 | an empty list has no date column to read and fails (`None`); any other list gives a sum |
| Services.InvestmentBankMonth | src/services.py:23-30 | for a real month's "YYYY-MM" text and a non-empty list the result is the cashback of exactly that month's rows, for every threshold; the empty list fails |
| Services.InvestmentBankMalformedMonth | src/services.py:27 | a month text that is not seven characters long selects nothing: result 0 for a non-empty list |
| Services.InvestmentBankAppend | src/services.py:27-29 | a single row gives its cashback or 0; appending a row to a non-empty list adds its cashback iff its `%Y-%m` text is the month |
| Services.SimpleSearch | src/services.py:32-34 | a row is returned iff it is in the input and its lower-cased category contains the lower-cased query, and as many times as it occurs in the input |
| Services.SimpleSearchSubsequence | src/services.py:34 | the result is a subsequence of the input (order kept) |
| Services.SimpleSearchEmpty | src/services.py:34 | the empty query returns every row |
| Services.SimpleSearchIdempotent | src/services.py:34 | searching the result again gives the same result |
| Services.SimpleSearchIgnoresCase | src/services.py:34 | a query and its lower-cased form find the same rows |
| Services.SimpleSearchFindsCategory | src/services.py:34 | a row whose category equals the query up to case is found |
| Services.SearchPhysicalTransfers | src/services.py:42-44 | a row is returned iff its category is exactly "Переводы", and as many times as it occurs in the input |
| Services.SearchPhysicalTransfersSubsequence | src/services.py:44 | the transfers keep their order, and the category search for "Переводы" finds each of them |
| Services.SearchPhoneNumbers | src/services.py:36-40 | a row is returned iff its description contains a match of the phone pattern, and as many times as it occurs in the input |
| Services.SearchPhoneNumbersSubsequence | src/services.py:40 | the result is a subsequence of the input |
| Services.SearchPhoneNumbersNeedsDigits | src/services.py:39-40 | every returned description has at least eleven digits and four digits in a row |
| Phone.Search | src/services.py:40 | `re.search`: some start position and some repetition counts make every piece match in turn; what a match needs is stated by the lemmas below |
| Phone.MatchFromDigits | src/services.py:39 | the text from the start of a match of a piece list onward holds at least the sum of the digit pieces' minimum counts |
| Phone.PhoneNeedsElevenDigits | src/services.py:39 | a text with a phone match has at least eleven digits |
| Phone.PhoneNeedsFourDigitRun | src/services.py:39 | a text with a phone match has four digits in a row |
| Phone.PlainNumberMatches | src/services.py:39 | "89211112233" matches the pattern |
| Phone.GroupedNumbersNotFound | src/services.py:39-40 | "+7 921 11-22-33", "+7 995 555-55-55" and "+7 981 333-44-55" style descriptions do not match |
| Text.Lower | src/services.py:34 | `str.lower()` character by character, keeping the length |
| Text.Contains | src/services.py:34 | the `in` substring test; a string found inside another is never longer than it |
| Text.LowerIdempotent | src/services.py:34 | lower-casing twice is lower-casing once |
| Text.ContainsSelf | src/services.py:34 | every string contains itself |
| Utils.GetGreeting | src/utils.py:49-65 | 5–11 gives "Доброе утро", 12–17 "Добрый день", 18–22 "Добрый вечер", every other hour "Доброй ночи", each as an iff |
| Utils.GetDateRange | src/utils.py:36-45 | the end is the input; the start is midnight on day 1 of the input's month, a valid timestamp not after the end |
| Utils.DateRangeMonthToDate | src/utils.py:41-44 | a valid moment lies in the range iff it is in the input's month and not later than the input |
| Utils.LastDigits | src/utils.py:86 | the last four characters of the card, or the whole of a shorter one |
| Utils.CardsOf | src/utils.py:77 | a card is listed iff some row carries it |
| Utils.Unique | src/utils.py:77 | the same values as the input, each once |
| Utils.Summarize | src/utils.py:78-89 | last digits of the card; spent is the card's expense total in the window (non-negative) |
| Utils.CardTableConserves | src/utils.py:77-89 | summaries of distinct cards hold, in total, the cashback and the spend of exactly the rows on those cards |
| Utils.CardSummariesConserve | src/utils.py:77-89 | the summaries of all the cards in the rows add up to the cashback and the spend of every row that has a card number |
| Utils.GetCardSummaries | src/utils.py:68-95 | one summary per distinct card in the window: exactly the stable sort of the per-card table (in `unique()` order) by spend descending then last digits, so ties keep card order; every card's summary is present, spends non-negative; the cashbacks and spends add up to those of the window's rows with a card |
| Utils.GetTopTransactions | src/utils.py:97-120 | one entry per expense in the window, none cut off, each amount positive, sorted by amount descending then date text |
| Utils.TopDateOrderIsTextual | src/utils.py:116 | ties are broken by the "DD.MM.YYYY" text, which puts 02.01.2024 before 15.12.2023 |
| Utils.Largest | src/utils.py:187-190 | `nlargest(7)` has min(groups, 7) entries |
| Utils.RestSum | src/utils.py:191-193 | the sum of the groups `nlargest` left out; 0 when there are seven groups or fewer |
| Utils.WithOther | src/utils.py:187-200 | at most eight entries, beginning with exactly the picked groups; every entry is a group or the "Остальное" entry, which is present exactly when the rest is positive |
| Utils.LargestMembers | src/utils.py:187-190 | `nlargest` picks among the groups, largest first, and picks no category twice when the group keys are distinct |
| Utils.LargestDominates | src/utils.py:187-190 | no group left out by `nlargest` is larger than one it picked |
| Utils.RestIsTail | src/utils.py:191-193 | with distinct keys, the groups not picked by key are exactly the tail of the ranking |
| Utils.LargestTotal | src/utils.py:187-193 | picked groups plus the rest add up to all groups |
| Utils.LargestFacts | src/utils.py:191-200 | with positive groups the rest is positive iff there are more than seven groups, and 0 otherwise |
| Utils.SummarizeExpenses | src/utils.py:174-213 | the total is the raw sum of the expenses in the window: minus their spend, never positive |
| Utils.ExpenseGroupsAreSpend | src/utils.py:176-186 | each negated category group is that category's spend in the window and is positive |
| Utils.SummarizeExpensesMain | src/utils.py:181-200 | "main" adds up to the negated total, holds min(groups, 7) distinct categories with their spend, largest first, plus "Остальное" exactly when there are more than seven, all positive |
| Utils.SummarizeExpensesLargest | src/utils.py:187-190 | no category outside "main" spent more than one inside it |
| Utils.SummarizeExpensesTransfers | src/utils.py:201-208 | "transfers_and_cash" holds, in key order, exactly one entry for each of "Наличные" and "Переводы" that has expenses in the window, each with its positive spend, and nothing else |
| Utils.SummarizeIncome | src/utils.py:216-235 | the income total is the sum of the income category groups, non-negative, and "main" has at most seven entries |
| Utils.SummarizeIncomeMain | src/utils.py:223-234 | "main" holds the largest income categories, largest first, distinct and each positive; "main" plus the unpicked tail of the ranking add up to the total, so "main" never exceeds it and equals it with at most seven categories |

## Left out

- Reading the transaction file (`read_transactions`), Excel/JSON input, `json.dumps` output text, and logging. The model returns the records the functions serialise. `read_transactions` also has two `else` branches on one `if`, so the file does not parse.
- Currency rates, stock prices, the views and the printing entry point: network, environment variables and I/O.
- `datetime.now()`: `GetGreeting` takes the hour as a parameter. The error branch of `get_greeting` (which reading the clock cannot reach) is not modelled.
- The `try`/`except` fallbacks that return `[]` on a missing column. Records have fixed fields, so a column is missing only from a frame built from an empty list; `Services.InvestmentBank` models that case (its `KeyError`) as `None`. One consequence is not captured: `get_card_summaries` reads the column 'Кэшбэк', while the data spells it 'Кешбэк', so with such data the source falls back to `[]`. The model reads the record's cashback field.
- Floating point, NaN, infinities, time zones and mixed-type columns. Amounts are integer kopecks and timestamps are civil date-times.
- The cutoff of the reports is a date compared with the row's day, which is how ISO "YYYY-MM-DD" strings compare. Non-ISO cutoff strings are not modelled.
- Date strings passed to `get_date_range`: it takes a parsed timestamp.
- `profitable_categories` overwrites the caller's date column with parsed dates. Rows here already hold parsed dates, so this in-place update has no modelled effect.
- Utils.GetTopTransactions: the pandas `sort_values` pre-sort by amount is not modelled; rows are taken in input order. Since the final stable sort is by (amount, date text), this changes only the order of entries that agree on both, which the default quicksort leaves unspecified anyway.
- Utils.Largest: `nlargest` ties are broken by category order, which is the order the group-by result lists them in. This is the `keep='first'` choice.
- Text.Lower: `str.lower()` is modelled for ASCII and the basic Cyrillic block (U+0400..U+042F) only.
- Phone.InClass: `\d` and `\s` are modelled as ASCII digits and ASCII whitespace. Python's Unicode digits and spaces are not included.

=== FILE: calendar.dfy ===
/** Civil dates and timestamps as pandas `Timestamp` values carry them: the
    proleptic Gregorian calendar, comparison, the day of the week
    (`dt.dayofweek`, `dt.day_name()`) and the `strftime` texts the source
    builds from a date. */
module Calendar {
  import opened Text

  datatype Date = Date(year: int, month: int, day: int)

  datatype DateTime = DateTime(date: Date, hour: int, minute: int, second: int)

  predicate IsLeapYear(y: int)
  {
    y % 4 == 0 && (y % 100 != 0 || y % 400 == 0)
  }

  function DaysInMonth(y: int, m: int): int
  {
    if m == 2 then (if IsLeapYear(y) then 29 else 28)
    else if m == 4 || m == 6 || m == 9 || m == 11 then 30
    else 31
  }

  /** A date a parsed timestamp can hold (four-digit years). */
  predicate ValidDate(d: Date)
  {
    1000 <= d.year <= 9999 && 1 <= d.month <= 12 && 1 <= d.day <= DaysInMonth(d.year, d.month)
  }

  predicate ValidDateTime(t: DateTime)
  {
    ValidDate(t.date) && 0 <= t.hour < 24 && 0 <= t.minute < 60 && 0 <= t.second < 60
  }

  /** Chronological order of dates: lexicographic on (year, month, day). */
  predicate DateLe(a: Date, b: Date)
  {
    a.year < b.year
    || (a.year == b.year && (a.month < b.month || (a.month == b.month && a.day <= b.day)))
  }

  /** Chronological order of timestamps. */
  predicate DateTimeLe(a: DateTime, b: DateTime)
  {
    (DateLe(a.date, b.date) && a.date != b.date)
    || (a.date == b.date
        && (a.hour < b.hour
            || (a.hour == b.hour && (a.minute < b.minute || (a.minute == b.minute && a.second <= b.second)))))
  }

  /** Days since 1970-01-01 (the civil-from-days algorithm run backwards). */
  function DaysFromCivil(d: Date): int
  {
    var y := if d.month <= 2 then d.year - 1 else d.year;
    var era := y / 400;
    var yoe := y - era * 400;
    var mp := (d.month + 9) % 12;
    var doy := (153 * mp + 2) / 5 + d.day - 1;
    var doe := yoe * 365 + yoe / 4 - yoe / 100 + doy;
    era * 146097 + doe - 719468
  }

  /** `dt.dayofweek`: Monday is 0 and Sunday is 6 (1970-01-01 was a Thursday). */
  function DayOfWeek(d: Date): (w: int)
    ensures 0 <= w < 7
  {
    (DaysFromCivil(d) + 3) % 7
  }

  lemma DaysFromCivilInMonth(y: int, m: int, day: int)
    requires 1 <= m <= 12
    ensures DaysFromCivil(Date(y, m, day + 1)) == DaysFromCivil(Date(y, m, day)) + 1
  {
  }

  /** The calendar day after `d`, rolling over into the next month and year. */
  function NextDay(d: Date): (n: Date)
    requires ValidDate(d)
    ensures d.year <= n.year <= d.year + 1 && DateLe(d, n) && d != n
    ensures d.year < 9999 ==> ValidDate(n)
  {
    if d.day < DaysInMonth(d.year, d.month) then Date(d.year, d.month, d.day + 1)
    else if d.month < 12 then Date(d.year, d.month + 1, 1)
    else Date(d.year + 1, 1, 1)
  }

  /** The last day of a month other than February or December is followed
      by day 1 of the next month. */
  lemma DaysFromCivilMonthEnd(y: int, m: int)
    requires 1 <= m <= 11 && m != 2
    ensures DaysFromCivil(Date(y, m + 1, 1)) == DaysFromCivil(Date(y, m, DaysInMonth(y, m))) + 1
  {
    var mp := (m + 9) % 12;
    assert (m + 10) % 12 == mp + 1;
    assert (153 * (mp + 1) + 2) / 5 == (153 * mp + 2) / 5 + DaysInMonth(y, m);
  }

  /** The days of the years of an era before year `z` of the era. */
  function EraDays(z: int): int
  {
    z * 365 + z / 4 - z / 100
  }

  lemma EraDaysStep(z: int)
    requires 1 <= z < 400
    ensures EraDays(z) == EraDays(z - 1) + 365 + (if z % 4 == 0 && z % 100 != 0 then 1 else 0)
  {
  }

  /** Leap years repeat every 400 years. */
  lemma LeapYearPeriod(k: int, z: int)
    ensures IsLeapYear(400 * k + z) == IsLeapYear(z)
  {
    assert 400 * k + z == 4 * (100 * k) + z;
    assert 400 * k + z == 100 * (4 * k) + z;
  }

  /** The last day of February is followed by March 1. */
  lemma DaysFromCivilFebruaryEnd(y: int)
    ensures DaysFromCivil(Date(y, 3, 1)) == DaysFromCivil(Date(y, 2, DaysInMonth(y, 2))) + 1
  {
    var era := (y - 1) / 400;
    var yoe := (y - 1) - era * 400;
    assert 0 <= yoe < 400;
    assert (153 * 11 + 2) / 5 == 337 && (153 * 0 + 2) / 5 == 0;
    assert DaysFromCivil(Date(y, 2, DaysInMonth(y, 2))) == era * 146097 + EraDays(yoe) + 336 + DaysInMonth(y, 2) - 719468;
    LeapYearPeriod(era, yoe + 1);
    if yoe == 399 {
      assert y / 400 == era + 1 && y - y / 400 * 400 == 0;
      assert DaysFromCivil(Date(y, 3, 1)) == (era + 1) * 146097 + EraDays(0) - 719468;
      assert IsLeapYear(400);
    } else {
      assert y / 400 == era && y - y / 400 * 400 == yoe + 1;
      assert DaysFromCivil(Date(y, 3, 1)) == era * 146097 + EraDays(yoe + 1) - 719468;
      EraDaysStep(yoe + 1);
    }
  }

  /** December 31 is followed by January 1 of the next year. */
  lemma DaysFromCivilYearEnd(y: int)
    ensures DaysFromCivil(Date(y + 1, 1, 1)) == DaysFromCivil(Date(y, 12, 31)) + 1
  {
    assert (153 * 10 + 2) / 5 == 306 && (153 * 9 + 2) / 5 == 275;
  }

  /** The day after `d` is one day later in the count from 1970-01-01. */
  lemma DaysFromCivilNextDay(d: Date)
    requires ValidDate(d)
    ensures DaysFromCivil(NextDay(d)) == DaysFromCivil(d) + 1
  {
    var n := NextDay(d);
    if d.day < DaysInMonth(d.year, d.month) {
      assert n == Date(d.year, d.month, d.day + 1) && d == Date(d.year, d.month, d.day);
      DaysFromCivilInMonth(d.year, d.month, d.day);
    } else if d.month == 12 {
      assert n == Date(d.year + 1, 1, 1) && d == Date(d.year, 12, 31);
      DaysFromCivilYearEnd(d.year);
    } else if d.month == 2 {
      assert n == Date(d.year, 3, 1) && d == Date(d.year, 2, DaysInMonth(d.year, 2));
      DaysFromCivilFebruaryEnd(d.year);
    } else {
      assert n == Date(d.year, d.month + 1, 1) && d == Date(d.year, d.month, DaysInMonth(d.year, d.month));
      DaysFromCivilMonthEnd(d.year, d.month);
    }
  }

  /** Every day, the last of a month or of a year included, is followed by
      the next day of the week: with `FixtureDays` this fixes the weekday of
      every date. */
  lemma DayOfWeekNextDay(d: Date)
    requires ValidDate(d)
    ensures DayOfWeek(NextDay(d)) == (DayOfWeek(d) + 1) % 7
  {
    DaysFromCivilNextDay(d);
    WeekdayStep(DaysFromCivil(d), DaysFromCivil(NextDay(d)));
  }

  lemma WeekdayStep(a: int, b: int)
    requires b == a + 1
    ensures (b + 3) % 7 == ((a + 3) % 7 + 1) % 7
  {
  }

  /** The names `dt.day_name()` gives, indexed by `dt.dayofweek`. */
  const WeekdayNames: seq<string> :=
    ["Monday", "Tuesday", "Wednesday", "Thursday", "Friday", "Saturday", "Sunday"]

  function DayName(d: Date): (name: string)
    ensures name in WeekdayNames
  {
    WeekdayNames[DayOfWeek(d)]
  }

  lemma WeekdayNamesDistinct()
    ensures forall i, j :: 0 <= i < j < 7 ==> WeekdayNames[i] != WeekdayNames[j]
  {
  }

  /** `strftime('%Y-%m')`. */
  function YearMonthText(d: Date): (s: string)
    ensures |s| == 7 && s[4] == '-'
  {
    Pad4(d.year) + "-" + Pad2(d.month)
  }

  /** `strftime('%d.%m.%Y')`. */
  function DayMonthYearText(d: Date): (s: string)
    ensures |s| == 10 && s[2] == '.' && s[5] == '.'
  {
    Pad2(d.day) + "." + Pad2(d.month) + "." + Pad4(d.year)
  }

  /** Two valid dates print the same `%Y-%m` text exactly when they fall in
      the same calendar month. */
  lemma YearMonthTextSameMonth(a: Date, b: Date)
    requires ValidDate(a) && ValidDate(b)
    ensures YearMonthText(a) == YearMonthText(b) <==> a.year == b.year && a.month == b.month
  {
    if YearMonthText(a) == YearMonthText(b) {
      assert Pad4(a.year) == YearMonthText(a)[..4] == YearMonthText(b)[..4] == Pad4(b.year);
      assert Pad2(a.month) == YearMonthText(a)[5..] == YearMonthText(b)[5..] == Pad2(b.month);
      Pad4Injective(a.year, b.year);
      Pad2Injective(a.month, b.month);
    }
  }

  /** Where the day, the month and the year sit in the `%d.%m.%Y` text. */
  lemma DayMonthYearTextParts(d: Date)
    ensures DayMonthYearText(d)[..2] == Pad2(d.day)
    ensures DayMonthYearText(d)[3..5] == Pad2(d.month)
    ensures DayMonthYearText(d)[6..] == Pad4(d.year)
  {
    var s := DayMonthYearText(d);
    assert s == Pad2(d.day) + "." + Pad2(d.month) + "." + Pad4(d.year);
  }

  /** `%d.%m.%Y` texts of valid dates are equal exactly when the dates are. */
  lemma DayMonthYearTextInjective(a: Date, b: Date)
    requires ValidDate(a) && ValidDate(b)
    requires DayMonthYearText(a) == DayMonthYearText(b)
    ensures a == b
  {
    DayMonthYearTextParts(a);
    DayMonthYearTextParts(b);
    Pad2Injective(a.day, b.day);
    Pad2Injective(a.month, b.month);
    Pad4Injective(a.year, b.year);
  }

  /** The days the test fixtures fall on: 2023-10-01 and 2023-10-15 are
      Sundays, 2023-10-10 is a Tuesday and 2023-09-20 a Wednesday. */
  lemma FixtureDays()
    ensures DayName(Date(2023, 10, 1)) == "Sunday"
    ensures DayName(Date(2023, 10, 15)) == "Sunday"
    ensures DayName(Date(2023, 10, 10)) == "Tuesday"
    ensures DayName(Date(2023, 9, 20)) == "Wednesday"
  {
    assert 2023 / 400 == 5 && 5 * 400 == 2000 && 5 * 146097 == 730485;
    assert 23 * 365 == 8395 && 23 / 4 == 5 && 23 / 100 == 0;
    assert (153 * 7 + 2) / 5 == 214 && (153 * 6 + 2) / 5 == 184;
    assert DaysFromCivil(Date(2023, 10, 1)) == 19631;
    assert DaysFromCivil(Date(2023, 10, 15)) == 19645;
    assert DaysFromCivil(Date(2023, 10, 10)) == 19640;
    assert DaysFromCivil(Date(2023, 9, 20)) == 19620;
  }
}

=== FILE: ledger.dfy ===
/** The transaction table and the grouped sums over it.

    A row of the table is a `Transaction`; money is held in integer kopecks,
    so the source's `round(x, 2)` on a sum of kopeck amounts is the identity.
    A `DataFrame.groupby(key)[column].sum()` result is an association list
    of `Entry` values whose keys are distinct and in ascending order, as
    pandas sorts the group keys. */
module Ledger {
  import opened Seqs
  import opened Text
  import opened Calendar

  datatype Option<T> = None | Some(value: T)

  /** One row: 'Дата операции', 'Сумма операции' (negative for an expense),
      'Кешбэк', 'Категория', 'Описание' and the optional 'Номер карты'. */
  datatype Transaction = Transaction(
    when: DateTime,
    amount: int,
    cashback: int,
    category: string,
    description: string,
    card: Option<string>)

  /** A key and the number stored under it: a dictionary item or a row of
      a grouped frame. */
  datatype Entry = Entry(key: string, value: int)

  function Abs(x: int): (r: int)
    ensures r >= 0 && (r == x || r == -x)
  {
    if x < 0 then -x else x
  }

  function Amount(t: Transaction): int { t.amount }

  function Cashback(t: Transaction): int { t.cashback }

  function Category(t: Transaction): string { t.category }

  function Value(e: Entry): int { e.value }

  function Key(e: Entry): string { e.key }

  predicate IsExpense(t: Transaction) { t.amount < 0 }

  predicate IsIncome(t: Transaction) { t.amount > 0 }

  /** The keys of an association list, in order. */
  function Keys(g: seq<Entry>): (ks: seq<string>)
    ensures |ks| == |g|
    ensures forall i :: 0 <= i < |g| ==> ks[i] == g[i].key
  {
    seq(|g|, i requires 0 <= i < |g| => g[i].key)
  }

  lemma KeysMember(g: seq<Entry>, e: Entry)
    ensures e in g ==> e.key in Keys(g)
  {
    if e in g {
      var i :| 0 <= i < |g| && g[i] == e;
      assert Keys(g)[i] == e.key;
    }
  }

  /** `d.get(k, 0)` on an association list. */
  function Lookup(g: seq<Entry>, k: string): int
  {
    if g == [] then 0 else if g[0].key == k then g[0].value else Lookup(g[1..], k)
  }

  /** Keys strictly ascending, hence distinct. */
  predicate StrictlySorted(g: seq<Entry>)
  {
    forall i, j :: 0 <= i < j < |g| ==> StrLt(g[i].key, g[j].key)
  }

  /** The sum of `val` over the rows whose `key` is `k`. */
  function SumWhere<T>(s: seq<T>, key: T -> string, val: T -> int, k: string): int
  {
    if s == [] then 0
    else (if key(s[0]) == k then val(s[0]) else 0) + SumWhere(s[1..], key, val, k)
  }

  /** Adds `v` to the group `k`, opening the group in key order if absent. */
  function AddTo(g: seq<Entry>, k: string, v: int): seq<Entry>
  {
    if g == [] then [Entry(k, v)]
    else if g[0].key == k then [Entry(k, g[0].value + v)] + g[1..]
    else if StrLe(k, g[0].key) then [Entry(k, v)] + g
    else [g[0]] + AddTo(g[1..], k, v)
  }

  /** `s.groupby(key)[val].sum()`: one entry per distinct key, keys in
      ascending order, each holding the sum of its rows. */
  function GroupSum<T>(s: seq<T>, key: T -> string, val: T -> int): seq<Entry>
  {
    if s == [] then [] else AddTo(GroupSum(s[1..], key, val), key(s[0]), val(s[0]))
  }

  lemma {:induction false} AddToKeys(g: seq<Entry>, k: string, v: int, x: string)
    ensures x in Keys(AddTo(g, k, v)) <==> x == k || x in Keys(g)
  {
    if g != [] && g[0].key != k && !StrLe(k, g[0].key) {
      AddToKeys(g[1..], k, v, x);
      assert Keys(g) == [g[0].key] + Keys(g[1..]);
      assert Keys(AddTo(g, k, v)) == [g[0].key] + Keys(AddTo(g[1..], k, v));
    } else if g != [] && g[0].key == k {
      assert Keys(AddTo(g, k, v)) == Keys(g);
    } else {
      assert Keys(AddTo(g, k, v)) == [k] + Keys(g);
    }
  }

  lemma {:induction false} AddToSorted(g: seq<Entry>, k: string, v: int)
    requires StrictlySorted(g)
    ensures StrictlySorted(AddTo(g, k, v))
    ensures AddTo(g, k, v) != [] && (g != [] ==> AddTo(g, k, v)[0].key == g[0].key || AddTo(g, k, v)[0].key == k)
  {
    if g == [] {
    } else if g[0].key == k {
      var r := AddTo(g, k, v);
      assert forall i :: 0 <= i < |r| ==> r[i].key == g[i].key;
    } else if StrLe(k, g[0].key) {
      var r := AddTo(g, k, v);
      forall i, j | 0 <= i < j < |r| ensures StrLt(r[i].key, r[j].key) {
        if i == 0 && j > 1 {
          StrLeTransitive(k, g[0].key, g[j - 1].key);
          if k == g[j - 1].key {
            StrLeAntisymmetric(g[0].key, k);
          }
        }
      }
    } else {
      AddToSorted(g[1..], k, v);
      var t := AddTo(g[1..], k, v);
      var r := AddTo(g, k, v);
      assert r == [g[0]] + t;
      StrLeTotal(k, g[0].key);
      assert StrLt(g[0].key, t[0].key);
      forall j | 1 <= j < |r| ensures StrLt(r[0].key, r[j].key) {
        if j > 1 {
          StrLeTransitive(g[0].key, t[0].key, t[j - 1].key);
          if g[0].key == t[j - 1].key {
            StrLeAntisymmetric(g[0].key, t[0].key);
          }
        }
      }
    }
  }

  /** A key below the first key of a sorted list is not in it. */
  lemma {:induction false} LookupBelow(g: seq<Entry>, k: string)
    requires StrictlySorted(g) && g != [] && StrLt(k, g[0].key)
    ensures Lookup(g, k) == 0
  {
    if |g| > 1 {
      StrLeTransitive(k, g[0].key, g[1].key);
      if k == g[1].key {
        StrLeAntisymmetric(k, g[0].key);
      }
      LookupBelow(g[1..], k);
    }
  }

  lemma {:induction false} AddToLookup(g: seq<Entry>, k: string, v: int, x: string)
    requires StrictlySorted(g)
    ensures Lookup(AddTo(g, k, v), x) == Lookup(g, x) + (if x == k then v else 0)
  {
    if g != [] && g[0].key != k && !StrLe(k, g[0].key) {
      AddToLookup(g[1..], k, v, x);
    } else if g != [] && g[0].key != k && x == k {
      LookupBelow(g, k);
    }
  }

  lemma {:induction false} AddToSum(g: seq<Entry>, k: string, v: int)
    ensures SumBy(AddTo(g, k, v), Value) == SumBy(g, Value) + v
  {
    if g != [] && g[0].key != k && !StrLe(k, g[0].key) {
      AddToSum(g[1..], k, v);
    } else if g != [] && g[0].key == k {
      assert AddTo(g, k, v)[1..] == g[1..];
    } else {
      assert AddTo(g, k, v)[1..] == g;
    }
  }

  /** Each group holds the sum of exactly its own rows. */
  lemma {:induction false} GroupSumLookup<T>(s: seq<T>, key: T -> string, val: T -> int, k: string)
    ensures Lookup(GroupSum(s, key, val), k) == SumWhere(s, key, val, k)
  {
    if s != [] {
      GroupSumLookup(s[1..], key, val, k);
      GroupSumSorted(s[1..], key, val);
      AddToLookup(GroupSum(s[1..], key, val), key(s[0]), val(s[0]), k);
    }
  }

  /** The group keys are exactly the keys that occur in the rows. */
  lemma {:induction false} GroupSumKeys<T>(s: seq<T>, key: T -> string, val: T -> int, k: string)
    ensures k in Keys(GroupSum(s, key, val)) <==> exists i :: 0 <= i < |s| && key(s[i]) == k
  {
    if s != [] {
      GroupSumKeys(s[1..], key, val, k);
      AddToKeys(GroupSum(s[1..], key, val), key(s[0]), val(s[0]), k);
      if exists i :: 0 <= i < |s| && key(s[i]) == k {
        var i :| 0 <= i < |s| && key(s[i]) == k;
        if i > 0 {
          assert key(s[1..][i - 1]) == k;
        }
      }
      if exists i :: 0 <= i < |s[1..]| && key(s[1..][i]) == k {
        var i :| 0 <= i < |s[1..]| && key(s[1..][i]) == k;
        assert key(s[i + 1]) == k;
      }
    }
  }

  lemma {:induction false} GroupSumSorted<T>(s: seq<T>, key: T -> string, val: T -> int)
    ensures StrictlySorted(GroupSum(s, key, val))
  {
    if s != [] {
      GroupSumSorted(s[1..], key, val);
      AddToSorted(GroupSum(s[1..], key, val), key(s[0]), val(s[0]));
    }
  }

  /** Grouping loses no row: the groups add up to the column total. */
  lemma {:induction false} GroupSumTotal<T>(s: seq<T>, key: T -> string, val: T -> int)
    ensures SumBy(GroupSum(s, key, val), Value) == SumBy(s, val)
  {
    if s != [] {
      GroupSumTotal(s[1..], key, val);
      AddToSum(GroupSum(s[1..], key, val), key(s[0]), val(s[0]));
    }
  }

  /** In a list with distinct keys, the entry at position i is what
      `Lookup` finds under its key. */
  lemma {:induction false} LookupAt(g: seq<Entry>, i: int)
    requires StrictlySorted(g) && 0 <= i < |g|
    ensures Lookup(g, g[i].key) == g[i].value
  {
    if i > 0 {
      assert g[0].key != g[i].key;
      assert StrictlySorted(g[1..]);
      LookupAt(g[1..], i - 1);
    }
  }

  /** When every row is negative (positive), so is every row subset sum
      that contains a row. */
  lemma {:induction false} SumWhereSign<T>(s: seq<T>, key: T -> string, val: T -> int, k: string, negative: bool)
    requires forall i :: 0 <= i < |s| ==> if negative then val(s[i]) < 0 else val(s[i]) > 0
    ensures negative ==> SumWhere(s, key, val, k) <= 0
    ensures !negative ==> SumWhere(s, key, val, k) >= 0
    ensures (exists i :: 0 <= i < |s| && key(s[i]) == k) ==>
              if negative then SumWhere(s, key, val, k) < 0 else SumWhere(s, key, val, k) > 0
  {
    if s != [] {
      SumWhereSign(s[1..], key, val, k, negative);
      if exists i :: 0 <= i < |s| && key(s[i]) == k {
        var i :| 0 <= i < |s| && key(s[i]) == k;
        if i > 0 {
          assert key(s[1..][i - 1]) == k;
        }
      }
    }
  }

  /** Every group is the sum of its own rows, and some row carries its key. */
  lemma GroupSumEntries<T>(s: seq<T>, key: T -> string, val: T -> int)
    ensures forall e :: e in GroupSum(s, key, val) ==>
      e.value == SumWhere(s, key, val, e.key) && exists i :: 0 <= i < |s| && key(s[i]) == e.key
  {
    var g := GroupSum(s, key, val);
    GroupSumSorted(s, key, val);
    forall e | e in g
      ensures e.value == SumWhere(s, key, val, e.key) && exists i :: 0 <= i < |s| && key(s[i]) == e.key
    {
      var i :| 0 <= i < |g| && g[i] == e;
      LookupAt(g, i);
      GroupSumLookup(s, key, val, e.key);
      assert Keys(g)[i] == e.key;
      GroupSumKeys(s, key, val, e.key);
    }
  }

  /** Groups of rows whose values are all positive (negative) are all
      positive (negative). */
  lemma GroupSumSign<T>(s: seq<T>, key: T -> string, val: T -> int, negative: bool)
    requires forall i :: 0 <= i < |s| ==> if negative then val(s[i]) < 0 else val(s[i]) > 0
    ensures forall e :: e in GroupSum(s, key, val) ==> if negative then e.value < 0 else e.value > 0
  {
    GroupSumEntries(s, key, val);
    forall e | e in GroupSum(s, key, val)
      ensures if negative then e.value < 0 else e.value > 0
    {
      SumWhereSign(s, key, val, e.key, negative);
    }
  }
}

=== FILE: phone.dfy ===
/** The phone-number pattern of `search_phone_numbers`,
    `\+?\d{1,3}[-.\s]?\(?\d{3}\)?[-.\s]?\d{3}[-.\s]?\d{4}`, as a list of
    pieces (a character class with a repetition range), and `re.search`
    over it: some start position and some choice of repetition counts make
    every piece match in turn. A backtracking regex engine finds a match
    exactly when such a choice exists, so only the existence is modelled. */
module Phone {
  import opened Text

  /** The character classes the pattern uses: `\+`, `\d`, `[-.\s]`, `\(`, `\)`. */
  datatype CharClass = PlusSign | Digit | Separator | OpenParen | CloseParen

  predicate IsSpace(c: char)
  {
    c == ' ' || c == '\t' || c == '\n' || c == '\r' || c == '\U{000B}' || c == '\U{000C}'
  }

  predicate InClass(c: char, k: CharClass)
  {
    match k
    case PlusSign => c == '+'
    case Digit => IsDigit(c)
    case Separator => c == '-' || c == '.' || IsSpace(c)
    case OpenParen => c == '('
    case CloseParen => c == ')'
  }

  /** A class repeated between `lo` and `hi` times (`?` is 0..1). */
  datatype Piece = Piece(cls: CharClass, lo: nat, hi: nat)

  const PhonePattern: seq<Piece> := [
    Piece(PlusSign, 0, 1), Piece(Digit, 1, 3), Piece(Separator, 0, 1),
    Piece(OpenParen, 0, 1), Piece(Digit, 3, 3), Piece(CloseParen, 0, 1),
    Piece(Separator, 0, 1), Piece(Digit, 3, 3), Piece(Separator, 0, 1),
    Piece(Digit, 4, 4)]

  /** The pieces `p` match a stretch of `s` that starts at position `i`. */
  predicate MatchFrom(p: seq<Piece>, s: string, i: nat)
    requires i <= |s|
    decreases |p|, 1, 0
  {
    p == [] || MatchPiece(p, s, i, 0)
  }

  /** The first piece, having already taken `n` characters, ends here or
      takes one more character, and the remaining pieces match after it. */
  predicate MatchPiece(p: seq<Piece>, s: string, i: nat, n: nat)
    requires p != [] && i <= |s|
    decreases |p|, 0, p[0].hi - n
  {
    (p[0].lo <= n <= p[0].hi && MatchFrom(p[1..], s, i))
    || (n < p[0].hi && i < |s| && InClass(s[i], p[0].cls) && MatchPiece(p, s, i + 1, n + 1))
  }

  /** `re.search(PhonePattern, s)` found a match. */
  predicate Search(s: string)
  {
    exists i | 0 <= i <= |s| :: MatchFrom(PhonePattern, s, i)
  }

  // ---------------------------------------------------------------------
  // What a match needs: at least eleven digits, four of them in a row.

  /** The number of decimal digits in `s[i..]`. */
  function DigitsFrom(s: string, i: nat): nat
    requires i <= |s|
    decreases |s| - i
  {
    if i == |s| then 0 else (if IsDigit(s[i]) then 1 else 0) + DigitsFrom(s, i + 1)
  }

  /** The least number of digits any match of the pieces contains. */
  function MinDigits(p: seq<Piece>): nat
  {
    if p == [] then 0 else (if p[0].cls == Digit then p[0].lo else 0) + MinDigits(p[1..])
  }

  lemma {:induction false} MatchPieceDigits(p: seq<Piece>, s: string, i: nat, n: nat)
    requires p != [] && i <= |s| && MatchPiece(p, s, i, n)
    ensures DigitsFrom(s, i) + (if p[0].cls != Digit then 0 else if n < p[0].lo then n else p[0].lo)
            >= MinDigits(p)
    decreases |p|, 0, p[0].hi - n
  {
    if p[0].lo <= n <= p[0].hi && MatchFrom(p[1..], s, i) {
      MatchFromDigits(p[1..], s, i);
    } else {
      MatchPieceDigits(p, s, i + 1, n + 1);
    }
  }

  /** Every match of the pieces holds at least `MinDigits(p)` digits. */
  lemma {:induction false} MatchFromDigits(p: seq<Piece>, s: string, i: nat)
    requires i <= |s| && MatchFrom(p, s, i)
    ensures DigitsFrom(s, i) >= MinDigits(p)
    decreases |p|, 1, 0
  {
    if p != [] {
      MatchPieceDigits(p, s, i, 0);
    }
  }

  lemma {:induction false} DigitsFromMonotone(s: string, i: nat)
    requires i <= |s|
    ensures DigitsFrom(s, 0) >= DigitsFrom(s, i)
    decreases i
  {
    if i > 0 {
      DigitsFromMonotone(s, i - 1);
    }
  }

  /** A text with fewer than eleven digits never holds a phone number. */
  lemma PhoneNeedsElevenDigits(s: string)
    requires Search(s)
    ensures DigitsFrom(s, 0) >= 11
  {
    var i :| 0 <= i <= |s| && MatchFrom(PhonePattern, s, i);
    MatchFromDigits(PhonePattern, s, i);
    DigitsFromMonotone(s, i);
  }

  /** Four digits in a row start at position `j`. */
  predicate FourDigitsAt(s: string, j: int)
  {
    0 <= j && j + 4 <= |s| && IsDigit(s[j]) && IsDigit(s[j + 1]) && IsDigit(s[j + 2]) && IsDigit(s[j + 3])
  }

  predicate HasFourDigits(s: string)
  {
    exists j | 0 <= j <= |s| - 4 :: FourDigitsAt(s, j)
  }

  const LastPiece: Piece := Piece(Digit, 4, 4)

  lemma {:induction false} LastPieceDigits(s: string, i: nat, n: nat)
    requires i <= |s| && n <= 4 && MatchPiece([LastPiece], s, i, n)
    requires n > 0 ==> i >= n && forall k :: i - n <= k < i ==> IsDigit(s[k])
    ensures FourDigitsAt(s, i - n)
    decreases 4 - n
  {
    if n < 4 {
      LastPieceDigits(s, i + 1, n + 1);
    }
  }

  lemma {:induction false} MatchEndsWithFourDigits(p: seq<Piece>, s: string, i: nat)
    requires i <= |s| && p != [] && p[|p| - 1] == LastPiece && MatchFrom(p, s, i)
    ensures exists j | i <= j <= |s| - 4 :: FourDigitsAt(s, j)
    decreases |p|, 1, 0
  {
    if |p| == 1 {
      assert p == [LastPiece];
      LastPieceDigits(s, i, 0);
    } else {
      PieceEndsWithFourDigits(p, s, i, 0);
    }
  }

  lemma {:induction false} PieceEndsWithFourDigits(p: seq<Piece>, s: string, i: nat, n: nat)
    requires i <= |s| && |p| > 1 && p[|p| - 1] == LastPiece && MatchPiece(p, s, i, n)
    ensures exists j | i <= j <= |s| - 4 :: FourDigitsAt(s, j)
    decreases |p|, 0, p[0].hi - n
  {
    if p[0].lo <= n <= p[0].hi && MatchFrom(p[1..], s, i) {
      MatchEndsWithFourDigits(p[1..], s, i);
    } else {
      PieceEndsWithFourDigits(p, s, i + 1, n + 1);
    }
  }

  /** Every phone number ends in four consecutive digits. */
  lemma PhoneNeedsFourDigitRun(s: string)
    requires Search(s)
    ensures HasFourDigits(s)
  {
    var i :| 0 <= i <= |s| && MatchFrom(PhonePattern, s, i);
    MatchEndsWithFourDigits(PhonePattern, s, i);
  }

  /** Eleven digits written without separators are a phone number: one
      country digit, then three, three and four. */
  lemma PlainNumberMatches()
    ensures Search("89211112233")
  {
    var s := "89211112233";
    var p := PhonePattern;
    assert MatchFrom(p[10..], s, 11);
    assert MatchPiece(p[9..], s, 11, 4);
    assert MatchPiece(p[9..], s, 10, 3);
    assert MatchPiece(p[9..], s, 9, 2);
    assert MatchPiece(p[9..], s, 8, 1);
    assert MatchPiece(p[9..], s, 7, 0);
    assert MatchPiece(p[8..], s, 7, 0);
    assert MatchPiece(p[7..], s, 7, 3);
    assert MatchPiece(p[7..], s, 6, 2);
    assert MatchPiece(p[7..], s, 5, 1);
    assert MatchPiece(p[7..], s, 4, 0);
    assert MatchPiece(p[6..], s, 4, 0);
    assert MatchPiece(p[5..], s, 4, 0);
    assert MatchPiece(p[4..], s, 4, 3);
    assert MatchPiece(p[4..], s, 3, 2);
    assert MatchPiece(p[4..], s, 2, 1);
    assert MatchPiece(p[4..], s, 1, 0);
    assert MatchPiece(p[3..], s, 1, 0);
    assert MatchPiece(p[2..], s, 1, 0);
    assert MatchPiece(p[1..], s, 1, 1);
    assert MatchPiece(p[1..], s, 0, 0);
    assert MatchPiece(p, s, 0, 0);
    assert MatchFrom(p, s, 0);
  }

  /** Numbers written with two-digit groups at the end, such as
      "+7 921 11-22-33", have no four digits in a row and are not found. */
  lemma GroupedNumbersNotFound()
    ensures !Search("Я МТС +7 921 11-22-33")
    ensures !Search("Тинькофф Мобайл +7 995 555-55-55")
    ensures !Search("МТС Mobile +7 981 333-44-55")
  {
    var a := "Я МТС +7 921 11-22-33";
    forall j | 0 <= j <= |a| - 4 ensures !FourDigitsAt(a, j) {
      if j <= 6 {
        assert !IsDigit(a[j]);
      } else if j <= 8 {
        assert !IsDigit(a[8]);
      } else if j <= 12 {
        assert !IsDigit(a[12]);
      } else if j <= 15 {
        assert !IsDigit(a[15]);
      } else {
        assert !IsDigit(a[18]);
      }
    }
    if Search(a) {
      PhoneNeedsFourDigitRun(a);
    }
    var b := "Тинькофф Мобайл +7 995 555-55-55";
    forall j | 0 <= j <= |b| - 4 ensures !FourDigitsAt(b, j) {
      if j <= 16 {
        assert !IsDigit(b[j]);
      } else if j <= 18 {
        assert !IsDigit(b[18]);
      } else if j <= 22 {
        assert !IsDigit(b[22]);
      } else if j <= 26 {
        assert !IsDigit(b[26]);
      } else {
        assert !IsDigit(b[29]);
      }
    }
    if Search(b) {
      PhoneNeedsFourDigitRun(b);
    }
    var c := "МТС Mobile +7 981 333-44-55";
    forall j | 0 <= j <= |c| - 4 ensures !FourDigitsAt(c, j) {
      if j <= 11 {
        assert !IsDigit(c[j]);
      } else if j <= 13 {
        assert !IsDigit(c[13]);
      } else if j <= 17 {
        assert !IsDigit(c[17]);
      } else if j <= 21 {
        assert !IsDigit(c[21]);
      } else {
        assert !IsDigit(c[24]);
      }
    }
    if Search(c) {
      PhoneNeedsFourDigitRun(c);
    }
  }
}

=== FILE: reports.dfy ===
/** The spending reports of src/reports.py: the expense total of one
    category, the expense totals of the seven days of the week, and the
    workday / weekend split, each over the rows dated on or before an
    optional cutoff day.

    Each report is written the way the source computes it (boolean masks,
    a group-by, `abs` of a column sum, `dict.get` with a 0 default) and is
    proved equal to a row-by-row definition (`CategorySpend`, `DaySpend`,
    `TotalSpend`) about which the report properties are then stated. */
module Reports {
  import opened Seqs
  import opened Calendar
  import opened Ledger

  /** `{"category": category, "total": total}`. */
  datatype CategoryTotal = CategoryTotal(category: string, total: int)

  const Workday: string := "Рабочий день"
  const Weekend: string := "Выходной день"

  // ---------------------------------------------------------------------
  // Row-by-row definitions

  /** What one row adds to an expense total: its absolute amount when it is
      an expense, nothing otherwise. */
  function Spend(t: Transaction): (r: int)
    ensures r >= 0
    ensures r > 0 <==> t.amount < 0
  {
    if t.amount < 0 then -t.amount else 0
  }

  /** Total expense of the rows. */
  function TotalSpend(s: seq<Transaction>): (r: int)
    ensures r >= 0
  {
    if s == [] then 0 else Spend(s[0]) + TotalSpend(s[1..])
  }

  lemma {:induction false} TotalSpendIsSum(s: seq<Transaction>)
    ensures TotalSpend(s) == SumBy(s, Spend)
  {
    if s != [] {
      TotalSpendIsSum(s[1..]);
    }
  }

  /** Total expense of the rows whose category is exactly `c`. */
  function CategorySpend(s: seq<Transaction>, c: string): (r: int)
    ensures 0 <= r <= TotalSpend(s)
  {
    if s == [] then 0
    else (if s[0].category == c then Spend(s[0]) else 0) + CategorySpend(s[1..], c)
  }

  /** Total expense of the rows dated on day-of-week `d` (Monday = 0). */
  function DaySpend(s: seq<Transaction>, d: int): (r: int)
    ensures 0 <= r <= TotalSpend(s)
  {
    if s == [] then 0
    else (if DayOfWeek(s[0].when.date) == d then Spend(s[0]) else 0) + DaySpend(s[1..], d)
  }

  // ---------------------------------------------------------------------
  // The reports, as the source computes them

  /** `if date: df = df[df['Дата операции'].dt.strftime('%Y-%m-%d') <= date]`:
      the rows dated on or before the cutoff day; no cutoff keeps all rows. */
  function Window(txs: seq<Transaction>, cutoff: Option<Date>): (r: seq<Transaction>)
    ensures IsSubsequence(r, txs)
  {
    match cutoff
    case None => SubsequenceSelf(txs); txs
    case Some(c) => FilterIsSubsequence(txs, OnOrBefore(c)); Filter(txs, OnOrBefore(c))
  }

  /** The mask `strftime('%Y-%m-%d') <= cutoff`. */
  function OnOrBefore(cutoff: Date): Transaction -> bool
  {
    (t: Transaction) => DateLe(t.when.date, cutoff)
  }

  /** `df[df['Категория'] == category]` */
  function OfCategory(s: seq<Transaction>, c: string): seq<Transaction>
  {
    Filter(s, (t: Transaction) => t.category == c)
  }

  function TxDayName(t: Transaction): string { DayName(t.when.date) }

  predicate IsWeekend(t: Transaction) { DayOfWeek(t.when.date) in {5, 6} }

  predicate IsWorkday(t: Transaction) { DayOfWeek(t.when.date) !in {5, 6} }

  /** spending_by_category: the absolute sum of the expense amounts of the
      rows in the window whose category equals `category`. */
  function SpendingByCategory(txs: seq<Transaction>, category: string, cutoff: Option<Date>): (r: CategoryTotal)
    ensures r.category == category
    ensures r.total == CategorySpend(Window(txs, cutoff), category)
  {
    var rows := Filter(OfCategory(Window(txs, cutoff), category), IsExpense);
    CategoryRows(Window(txs, cutoff), category);
    CategoryTotal(category, Abs(SumBy(rows, Amount)))
  }

  /** spending_by_weekday: `groupby(day_name).sum().abs()` over the expense
      rows of the window, read back with `.get(day, 0)` for Monday..Sunday. */
  function SpendingByWeekday(txs: seq<Transaction>, cutoff: Option<Date>): (r: seq<Entry>)
    ensures Keys(r) == WeekdayNames
    ensures forall d :: 0 <= d < 7 ==> r[d].value == DaySpend(Window(txs, cutoff), d)
  {
    var groups := GroupSum(Filter(Window(txs, cutoff), IsExpense), TxDayName, Amount);
    WeekdayRows(Window(txs, cutoff));
    seq(7, d requires 0 <= d < 7 => Entry(WeekdayNames[d], Abs(Lookup(groups, WeekdayNames[d]))))
  }

  /** spending_by_workday: the absolute expense sums of the rows not on
      Saturday or Sunday (dayofweek 5, 6) and of the rows on them. */
  function SpendingByWorkday(txs: seq<Transaction>, cutoff: Option<Date>): (r: seq<Entry>)
    ensures Keys(r) == [Workday, Weekend]
    ensures r[0].value >= 0 && r[1].value >= 0
  {
    var expenses := Filter(Window(txs, cutoff), IsExpense);
    var workday := Abs(SumBy(Filter(expenses, IsWorkday), Amount));
    var weekend := Abs(SumBy(Filter(expenses, IsWeekend), Amount));
    [Entry(Workday, workday), Entry(Weekend, weekend)]
  }

  // ---------------------------------------------------------------------
  // The pipelines equal the row-by-row definitions

  /** The masked sum of the category's expense rows is minus its spend. */
  lemma {:induction false} CategoryRows(s: seq<Transaction>, c: string)
    ensures SumBy(Filter(OfCategory(s, c), IsExpense), Amount) == -CategorySpend(s, c)
  {
    if s != [] {
      CategoryRows(s[1..], c);
    }
  }

  lemma {:induction false} DayNameRows(s: seq<Transaction>, d: int)
    requires 0 <= d < 7
    ensures SumWhere(Filter(s, IsExpense), TxDayName, Amount, WeekdayNames[d]) == -DaySpend(s, d)
  {
    if s != [] {
      DayNameRows(s[1..], d);
      WeekdayNamesDistinct();
    }
  }

  /** Each weekday group read back with a 0 default is minus that day's spend. */
  lemma WeekdayRows(s: seq<Transaction>)
    ensures forall d :: 0 <= d < 7 ==>
      Lookup(GroupSum(Filter(s, IsExpense), TxDayName, Amount), WeekdayNames[d]) == -DaySpend(s, d)
  {
    forall d | 0 <= d < 7
      ensures Lookup(GroupSum(Filter(s, IsExpense), TxDayName, Amount), WeekdayNames[d]) == -DaySpend(s, d)
    {
      GroupSumLookup(Filter(s, IsExpense), TxDayName, Amount, WeekdayNames[d]);
      DayNameRows(s, d);
    }
  }

  lemma {:induction false} WeekendRows(s: seq<Transaction>)
    ensures SumBy(Filter(Filter(s, IsExpense), IsWeekend), Amount) == -(DaySpend(s, 5) + DaySpend(s, 6))
    ensures SumBy(Filter(Filter(s, IsExpense), IsWorkday), Amount)
         == -(DaySpend(s, 0) + DaySpend(s, 1) + DaySpend(s, 2) + DaySpend(s, 3) + DaySpend(s, 4))
  {
    if s != [] {
      WeekendRows(s[1..]);
    }
  }

  /** The masked sum of the expense rows is minus their total spend. */
  lemma {:induction false} ExpenseRows(s: seq<Transaction>)
    ensures SumBy(Filter(s, IsExpense), Amount) == -TotalSpend(s)
  {
    if s != [] {
      ExpenseRows(s[1..]);
    }
  }

  /** Grouping the expense rows by category, with any column that holds
      each expense's absolute amount, gives each category its spend. */
  lemma {:induction false} ExpenseGroupsSpend(s: seq<Transaction>, val: Transaction -> int, c: string)
    requires forall t: Transaction :: t.amount < 0 ==> val(t) == -t.amount
    ensures SumWhere(Filter(s, IsExpense), Category, val, c) == CategorySpend(s, c)
  {
    if s != [] {
      ExpenseGroupsSpend(s[1..], val, c);
    }
  }

  // ---------------------------------------------------------------------
  // Properties of the reports

  /** The seven days partition the expenses: the weekday totals add up to
      the expense total of the same window, whatever the category. */
  lemma {:induction false} DaysCoverTotal(s: seq<Transaction>)
    ensures DaySpend(s, 0) + DaySpend(s, 1) + DaySpend(s, 2) + DaySpend(s, 3)
          + DaySpend(s, 4) + DaySpend(s, 5) + DaySpend(s, 6) == TotalSpend(s)
  {
    if s != [] {
      DaysCoverTotal(s[1..]);
    }
  }

  lemma WeekdayConservation(txs: seq<Transaction>, cutoff: Option<Date>)
    ensures SumBy(SpendingByWeekday(txs, cutoff), Value) == TotalSpend(Window(txs, cutoff))
  {
    var r := SpendingByWeekday(txs, cutoff);
    DaysCoverTotal(Window(txs, cutoff));
    assert r == r[..6] + [r[6]];
    SumByAppend(r[..6], [r[6]], Value);
    assert r[..6] == r[..5] + [r[5]];
    SumByAppend(r[..5], [r[5]], Value);
    assert r[..5] == r[..4] + [r[4]];
    SumByAppend(r[..4], [r[4]], Value);
    assert r[..4] == r[..3] + [r[3]];
    SumByAppend(r[..3], [r[3]], Value);
    assert r[..3] == r[..2] + [r[2]];
    SumByAppend(r[..2], [r[2]], Value);
    assert r[..2] == [r[0], r[1]];
  }

  /** The weekend bucket is Saturday plus Sunday, the workday bucket is
      Monday to Friday, and together they are the whole expense total. */
  lemma WorkdayMatchesWeekdays(txs: seq<Transaction>, cutoff: Option<Date>)
    ensures var w, d := SpendingByWorkday(txs, cutoff), SpendingByWeekday(txs, cutoff);
      && w[1].value == d[5].value + d[6].value
      && w[0].value == d[0].value + d[1].value + d[2].value + d[3].value + d[4].value
      && w[0].value + w[1].value == TotalSpend(Window(txs, cutoff))
  {
    WeekendRows(Window(txs, cutoff));
    DaysCoverTotal(Window(txs, cutoff));
  }

  /** Only expense rows count: appending a row changes the category total
      by that row's absolute amount if it is an expense of the category,
      and not at all otherwise (a 0 or +100 row adds nothing, a -100 row
      adds 100). */
  lemma SpendingByCategoryAppend(txs: seq<Transaction>, category: string, t: Transaction)
    ensures SpendingByCategory(txs + [t], category, None).total
         == SpendingByCategory(txs, category, None).total
            + (if t.amount < 0 && t.category == category then -t.amount else 0)
  {
    CategorySpendAppend(txs, [t], category);
  }

  lemma {:induction false} CategorySpendAppend(a: seq<Transaction>, b: seq<Transaction>, c: string)
    ensures CategorySpend(a + b, c) == CategorySpend(a, c) + CategorySpend(b, c)
  {
    if a == [] {
      assert a + b == b;
    } else {
      assert (a + b)[0] == a[0] && (a + b)[1..] == a[1..] + b;
      CategorySpendAppend(a[1..], b, c);
    }
  }

  /** A category no row carries, or an empty table, reports 0 with the
      category echoed back. */
  lemma {:induction false} SpendingByCategoryAbsent(txs: seq<Transaction>, category: string, cutoff: Option<Date>)
    requires forall i :: 0 <= i < |txs| ==> txs[i].category != category
    ensures SpendingByCategory(txs, category, cutoff) == CategoryTotal(category, 0)
  {
    var w := Window(txs, cutoff);
    forall i | 0 <= i < |w| ensures w[i].category != category {
      if cutoff.Some? {
        FilterMembership(txs, OnOrBefore(cutoff.value), w[i]);
      }
      assert w[i] in txs;
    }
    CategorySpendAbsent(w, category);
  }

  lemma {:induction false} CategorySpendAbsent(s: seq<Transaction>, c: string)
    requires forall i :: 0 <= i < |s| ==> s[i].category != c
    ensures CategorySpend(s, c) == 0
  {
    if s != [] {
      CategorySpendAbsent(s[1..], c);
    }
  }

  /** A cutoff on or after every row's day filters nothing. */
  lemma CutoffAfterAll(txs: seq<Transaction>, cutoff: Date)
    requires forall i :: 0 <= i < |txs| ==> DateLe(txs[i].when.date, cutoff)
    ensures Window(txs, Some(cutoff)) == txs
    ensures forall c :: SpendingByCategory(txs, c, Some(cutoff)) == SpendingByCategory(txs, c, None)
    ensures SpendingByWeekday(txs, Some(cutoff)) == SpendingByWeekday(txs, None)
    ensures SpendingByWorkday(txs, Some(cutoff)) == SpendingByWorkday(txs, None)
  {
    FilterAll(txs, OnOrBefore(cutoff));
  }

  /** A cutoff before every row's day leaves nothing: every report is 0. */
  lemma CutoffBeforeAll(txs: seq<Transaction>, cutoff: Date)
    requires forall i :: 0 <= i < |txs| ==> !DateLe(txs[i].when.date, cutoff)
    ensures Window(txs, Some(cutoff)) == []
    ensures forall c :: SpendingByCategory(txs, c, Some(cutoff)).total == 0
    ensures forall d :: 0 <= d < 7 ==> SpendingByWeekday(txs, Some(cutoff))[d].value == 0
    ensures SpendingByWorkday(txs, Some(cutoff)) == [Entry(Workday, 0), Entry(Weekend, 0)]
  {
    FilterNone(txs, OnOrBefore(cutoff));
  }

  /** With a cutoff, exactly the rows dated on or before it are kept. */
  lemma WindowMembership(txs: seq<Transaction>, cutoff: Date, t: Transaction)
    ensures t in Window(txs, Some(cutoff)) <==> t in txs && DateLe(t.when.date, cutoff)
  {
    FilterMembership(txs, OnOrBefore(cutoff), t);
  }
}

=== FILE: seqs.dfy ===
/** Generic sequence operations every report is built from: the boolean-mask
    row filter (`df[mask]`, a list comprehension with an `if`) and the column
    sum (`Series.sum()`), with the facts about them the reports rely on. */
module Seqs {

  /** The elements of `s` that satisfy `p`, in their original order. */
  function Filter<T>(s: seq<T>, p: T -> bool): (r: seq<T>)
    ensures |r| <= |s|
    ensures forall i :: 0 <= i < |r| ==> p(r[i])
  {
    if s == [] then []
    else if p(s[0]) then [s[0]] + Filter(s[1..], p)
    else Filter(s[1..], p)
  }

  /** The sum of `f` over the elements of `s` (an empty sum is 0). */
  function SumBy<T>(s: seq<T>, f: T -> int): int
  {
    if s == [] then 0 else f(s[0]) + SumBy(s[1..], f)
  }

  /** `a` occurs in `b` with its order kept, possibly with gaps. */
  ghost predicate IsSubsequence<T>(a: seq<T>, b: seq<T>)
    decreases |b|
  {
    if a == [] then true
    else if b == [] then false
    else if a[0] == b[0] then IsSubsequence(a[1..], b[1..])
    else IsSubsequence(a, b[1..])
  }

  lemma {:induction false} FilterMembership<T>(s: seq<T>, p: T -> bool, x: T)
    ensures x in Filter(s, p) <==> x in s && p(x)
  {
    if s != [] {
      FilterMembership(s[1..], p, x);
    }
  }

  /** The mask keeps every copy of an element it passes and no copy of
      one it rejects. */
  lemma {:induction false} FilterCount<T>(s: seq<T>, p: T -> bool, x: T)
    ensures multiset(Filter(s, p))[x] == if p(x) then multiset(s)[x] else 0
  {
    if s != [] {
      FilterCount(s[1..], p, x);
      assert s == [s[0]] + s[1..];
    }
  }

  lemma FilterCountAll<T>(s: seq<T>, p: T -> bool)
    ensures forall x :: multiset(Filter(s, p))[x] == if p(x) then multiset(s)[x] else 0
  {
    forall x ensures multiset(Filter(s, p))[x] == if p(x) then multiset(s)[x] else 0 {
      FilterCount(s, p, x);
    }
  }

  /** Every element of `Filter(s, p)` is in `s` and satisfies `p`, and
      conversely. */
  lemma FilterMembershipAll<T>(s: seq<T>, p: T -> bool)
    ensures forall x :: x in Filter(s, p) <==> x in s && p(x)
  {
    forall x ensures x in Filter(s, p) <==> x in s && p(x) {
      FilterMembership(s, p, x);
    }
  }

  lemma {:induction false} FilterIsSubsequence<T>(s: seq<T>, p: T -> bool)
    ensures IsSubsequence(Filter(s, p), s)
  {
    if s != [] {
      FilterIsSubsequence(s[1..], p);
      if p(s[0]) {
        assert Filter(s, p)[0] == s[0] && Filter(s, p)[1..] == Filter(s[1..], p);
      } else if Filter(s, p) != [] {
        assert Filter(s, p) == Filter(s[1..], p);
        SubsequenceSkip(Filter(s, p), s);
      }
    }
  }

  lemma {:induction false} SubsequenceSelf<T>(s: seq<T>)
    ensures IsSubsequence(s, s)
  {
    if s != [] {
      SubsequenceSelf(s[1..]);
    }
  }

  /** A subsequence of `b[1..]` is a subsequence of `b`. */
  lemma {:induction false} SubsequenceSkip<T>(a: seq<T>, b: seq<T>)
    requires b != [] && IsSubsequence(a, b[1..])
    ensures IsSubsequence(a, b)
    decreases |b|, 0
  {
    if a != [] && a[0] == b[0] {
      SubsequenceTail(a, b[1..]);
    }
  }

  /** Dropping the first element of a subsequence keeps it a subsequence. */
  lemma {:induction false} SubsequenceTail<T>(a: seq<T>, b: seq<T>)
    requires a != [] && IsSubsequence(a, b)
    ensures IsSubsequence(a[1..], b)
    decreases |b|, 1
  {
    if a[0] == b[0] {
      if a[1..] != [] {
        SubsequenceSkip(a[1..], b);
      }
    } else {
      SubsequenceTail(a, b[1..]);
      if a[1..] != [] {
        SubsequenceSkip(a[1..], b);
      }
    }
  }

  lemma {:induction false} FilterIdempotent<T>(s: seq<T>, p: T -> bool)
    ensures Filter(Filter(s, p), p) == Filter(s, p)
  {
    if s != [] {
      FilterIdempotent(s[1..], p);
    }
  }

  lemma {:induction false} FilterAppend<T>(a: seq<T>, b: seq<T>, p: T -> bool)
    ensures Filter(a + b, p) == Filter(a, p) + Filter(b, p)
  {
    if a == [] {
      assert a + b == b;
    } else {
      assert (a + b)[0] == a[0] && (a + b)[1..] == a[1..] + b;
      FilterAppend(a[1..], b, p);
    }
  }

  /** Masks that agree on every element select the same rows. */
  lemma {:induction false} FilterCongruent<T>(s: seq<T>, p: T -> bool, q: T -> bool)
    requires forall i :: 0 <= i < |s| ==> p(s[i]) == q(s[i])
    ensures Filter(s, p) == Filter(s, q)
  {
    if s != [] {
      FilterCongruent(s[1..], p, q);
    }
  }

  /** A mask that every element passes keeps the whole sequence. */
  lemma {:induction false} FilterAll<T>(s: seq<T>, p: T -> bool)
    requires forall i :: 0 <= i < |s| ==> p(s[i])
    ensures Filter(s, p) == s
  {
    if s != [] {
      FilterAll(s[1..], p);
    }
  }

  /** A mask that no element passes keeps nothing. */
  lemma {:induction false} FilterNone<T>(s: seq<T>, p: T -> bool)
    requires forall i :: 0 <= i < |s| ==> !p(s[i])
    ensures Filter(s, p) == []
  {
    if s != [] {
      FilterNone(s[1..], p);
    }
  }

  lemma {:induction false} SumByAppend<T>(a: seq<T>, b: seq<T>, f: T -> int)
    ensures SumBy(a + b, f) == SumBy(a, f) + SumBy(b, f)
  {
    if a == [] {
      assert a + b == b;
    } else {
      assert (a + b)[0] == a[0] && (a + b)[1..] == a[1..] + b;
      SumByAppend(a[1..], b, f);
    }
  }

  lemma {:induction false} SumByNonNegative<T>(s: seq<T>, f: T -> int)
    requires forall i :: 0 <= i < |s| ==> f(s[i]) >= 0
    ensures SumBy(s, f) >= 0
  {
    if s != [] {
      SumByNonNegative(s[1..], f);
    }
  }

  /** Every element positive and at least one element: the sum is positive. */
  lemma {:induction false} SumByPositive<T>(s: seq<T>, f: T -> int)
    requires s != []
    requires forall i :: 0 <= i < |s| ==> f(s[i]) > 0
    ensures SumBy(s, f) > 0
  {
    SumByNonNegative(s[1..], f);
  }

  /** Rows that pass one of two masks that never hold together sum to the
      rows of the first plus the rows of the second. */
  lemma {:induction false} SumByDisjointUnion<T>(s: seq<T>, p: T -> bool, q: T -> bool, r: T -> bool, f: T -> int)
    requires forall i :: 0 <= i < |s| ==> r(s[i]) == (p(s[i]) || q(s[i]))
    requires forall i :: 0 <= i < |s| ==> !(p(s[i]) && q(s[i]))
    ensures SumBy(Filter(s, r), f) == SumBy(Filter(s, p), f) + SumBy(Filter(s, q), f)
  {
    if s != [] {
      SumByDisjointUnion(s[1..], p, q, r, f);
    }
  }
}

=== FILE: services.dfy ===
/** The services of src/services.py: the per-category expenses of one
    month over a fixed list of categories, the monthly cashback sum
    (`investment_bank`), and three order-preserving searches over the
    transaction list. */
module Services {
  import opened Seqs
  import opened Text
  import opened Calendar
  import opened Ledger
  import opened Reports
  import opened Phone

  // ---------------------------------------------------------------------
  // profitable_categories

  /** The categories the result always lists, in this order. */
  const AllCategories: seq<string> := [
    "Супермаркеты", "Переводы", "Различные товары", "Бонусы",
    "Пополнение_BANK007", "Проценты_на_остаток", "Кэшбэк"]

  /** The mask `dt.year == year & dt.month == month`. */
  function InMonth(year: int, month: int): Transaction -> bool
  {
    (t: Transaction) => t.when.date.year == year && t.when.date.month == month
  }

  /** The amount column after `.abs()` on rows already known to be expenses. */
  function Magnitude(t: Transaction): int { Abs(t.amount) }

  /** profitable_categories: the month's expense rows, their amounts made
      absolute, summed per category, then read back for each listed
      category with a 0 default. */
  function ProfitableCategories(txs: seq<Transaction>, year: int, month: int): (r: seq<Entry>)
    ensures Keys(r) == AllCategories
    ensures forall i :: 0 <= i < |r| ==>
      r[i].value == CategorySpend(Filter(txs, InMonth(year, month)), AllCategories[i])
  {
    var monthRows := Filter(txs, InMonth(year, month));
    var totals := GroupSum(Filter(monthRows, IsExpense), Category, Magnitude);
    ProfitableRows(monthRows);
    seq(7, i requires 0 <= i < 7 => Entry(AllCategories[i], Lookup(totals, AllCategories[i])))
  }

  /** Each category's group of absolute expense amounts is that category's
      spend. */
  lemma ProfitableRows(s: seq<Transaction>)
    ensures forall c :: Lookup(GroupSum(Filter(s, IsExpense), Category, Magnitude), c) == CategorySpend(s, c)
  {
    forall c ensures Lookup(GroupSum(Filter(s, IsExpense), Category, Magnitude), c) == CategorySpend(s, c) {
      GroupSumLookup(Filter(s, IsExpense), Category, Magnitude, c);
      ExpenseGroupsSpend(s, Magnitude, c);
    }
  }

  /** Each listed category holds what spending_by_category reports for the
      month's rows, so it is never negative. */
  lemma ProfitableMatchesReport(txs: seq<Transaction>, year: int, month: int)
    ensures forall i :: 0 <= i < 7 ==>
      ProfitableCategories(txs, year, month)[i]
        == Entry(AllCategories[i], SpendingByCategory(Filter(txs, InMonth(year, month)), AllCategories[i], None).total)
    ensures forall i :: 0 <= i < 7 ==> ProfitableCategories(txs, year, month)[i].value >= 0
  {
    var r := ProfitableCategories(txs, year, month);
    assert forall i :: 0 <= i < 7 ==> r[i].key == Keys(r)[i];
  }

  /** An income row, or a row of another month, changes no value. */
  lemma ProfitableIgnoresRow(txs: seq<Transaction>, year: int, month: int, t: Transaction)
    requires t.amount >= 0 || !InMonth(year, month)(t)
    ensures ProfitableCategories(txs + [t], year, month) == ProfitableCategories(txs, year, month)
  {
    var a, b := ProfitableCategories(txs + [t], year, month), ProfitableCategories(txs, year, month);
    FilterAppend(txs, [t], InMonth(year, month));
    forall i | 0 <= i < 7 ensures a[i] == b[i] {
      assert a[i].key == Keys(a)[i] && b[i].key == Keys(b)[i];
      CategorySpendAppend(Filter(txs, InMonth(year, month)), Filter([t], InMonth(year, month)), AllCategories[i]);
    }
  }

  /** An expense row of the month raises its category by its absolute
      amount when the category is listed. */
  lemma ProfitableCountsExpense(txs: seq<Transaction>, year: int, month: int, t: Transaction, i: int)
    requires t.amount < 0 && InMonth(year, month)(t) && 0 <= i < 7 && t.category == AllCategories[i]
    ensures ProfitableCategories(txs + [t], year, month)[i].value
         == ProfitableCategories(txs, year, month)[i].value - t.amount
  {
    FilterAppend(txs, [t], InMonth(year, month));
    assert Filter([t], InMonth(year, month)) == [t];
    CategorySpendAppend(Filter(txs, InMonth(year, month)), [t], AllCategories[i]);
  }

  // ---------------------------------------------------------------------
  // investment_bank

  /** The mask `dt.strftime('%Y-%m') == month`. */
  function InMonthText(month: string): Transaction -> bool
  {
    (t: Transaction) => YearMonthText(t.when.date) == month
  }

  /** The cashback sum of the rows whose "YYYY-MM" text is `month`. */
  function MonthTextCashback(month: string, txs: seq<Transaction>): int
  {
    SumBy(Filter(txs, InMonthText(month)), Cashback)
  }

  /** investment_bank: the cashback sum of the rows of the month named by
      the "YYYY-MM" text. The threshold takes no part. An empty list builds
      a frame without columns, whose date column cannot be read: `None`. */
  function InvestmentBank(month: string, txs: seq<Transaction>, threshold: int): (r: Option<int>)
    ensures r == None <==> txs == []
  {
    if txs == [] then None else Some(MonthTextCashback(month, txs))
  }

  /** The cashback of the rows dated in the given year and month. */
  function MonthCashback(s: seq<Transaction>, year: int, month: int): int
  {
    if s == [] then 0
    else (if s[0].when.date.year == year && s[0].when.date.month == month then s[0].cashback else 0)
         + MonthCashback(s[1..], year, month)
  }

  lemma {:induction false} MonthTextCashbackMonth(txs: seq<Transaction>, year: int, month: int)
    requires 1000 <= year <= 9999 && 1 <= month <= 12
    requires forall i :: 0 <= i < |txs| ==> ValidDate(txs[i].when.date)
    ensures MonthTextCashback(YearMonthText(Date(year, month, 1)), txs) == MonthCashback(txs, year, month)
  {
    if txs != [] {
      MonthTextCashbackMonth(txs[1..], year, month);
      YearMonthTextSameMonth(txs[0].when.date, Date(year, month, 1));
    }
  }

  /** For the text of a real month and a non-empty list, the result is the
      cashback of exactly that month's rows, whatever the threshold. */
  lemma InvestmentBankMonth(txs: seq<Transaction>, year: int, month: int, threshold: int)
    requires 1000 <= year <= 9999 && 1 <= month <= 12
    requires forall i :: 0 <= i < |txs| ==> ValidDate(txs[i].when.date)
    ensures InvestmentBank(YearMonthText(Date(year, month, 1)), txs, threshold)
         == if txs == [] then None else Some(MonthCashback(txs, year, month))
  {
    MonthTextCashbackMonth(txs, year, month);
  }

  lemma {:induction false} MonthTextCashbackMalformed(month: string, txs: seq<Transaction>)
    requires |month| != 7
    ensures MonthTextCashback(month, txs) == 0
  {
    if txs != [] {
      MonthTextCashbackMalformed(month, txs[1..]);
    }
  }

  /** A month text of any length other than seven ("YYYY-MM") selects no
      row, so a non-empty list gives 0. */
  lemma InvestmentBankMalformedMonth(month: string, txs: seq<Transaction>, threshold: int)
    requires |month| != 7
    ensures InvestmentBank(month, txs, threshold) == if txs == [] then None else Some(0)
  {
    MonthTextCashbackMalformed(month, txs);
  }

  /** Appending a row adds its cashback exactly when it falls in the month;
      a single row gives its own cashback or 0. */
  lemma InvestmentBankAppend(month: string, txs: seq<Transaction>, threshold: int, t: Transaction)
    ensures InvestmentBank(month, [t], threshold)
         == Some(if YearMonthText(t.when.date) == month then t.cashback else 0)
    ensures txs != [] ==>
      InvestmentBank(month, txs + [t], threshold).value
         == InvestmentBank(month, txs, threshold).value + (if YearMonthText(t.when.date) == month then t.cashback else 0)
  {
    FilterAppend(txs, [t], InMonthText(month));
    SumByAppend(Filter(txs, InMonthText(month)), Filter([t], InMonthText(month)), Cashback);
    FilterAppend([], [t], InMonthText(month));
    assert [] + [t] == [t];
  }

  // ---------------------------------------------------------------------
  // The searches

  /** The test `query.lower() in t['Категория'].lower()`. */
  function CategoryMatches(query: string): Transaction -> bool
  {
    (t: Transaction) => Contains(Lower(t.category), Lower(query))
  }

  /** simple_search: the rows whose category contains the query, ignoring
      case, in their original order. */
  function SimpleSearch(query: string, txs: seq<Transaction>): (r: seq<Transaction>)
    ensures forall t :: t in r <==> t in txs && Contains(Lower(t.category), Lower(query))
    ensures forall t :: multiset(r)[t] == if Contains(Lower(t.category), Lower(query)) then multiset(txs)[t] else 0
  {
    FilterMembershipAll(txs, CategoryMatches(query));
    FilterCountAll(txs, CategoryMatches(query));
    Filter(txs, CategoryMatches(query))
  }

  /** The search keeps the order of the rows it finds. */
  lemma SimpleSearchSubsequence(query: string, txs: seq<Transaction>)
    ensures IsSubsequence(SimpleSearch(query, txs), txs)
  {
    FilterIsSubsequence(txs, CategoryMatches(query));
  }

  /** The empty query finds every row. */
  lemma SimpleSearchEmpty(txs: seq<Transaction>)
    ensures SimpleSearch("", txs) == txs
  {
    forall t: Transaction ensures CategoryMatches("")(t) {
      ContainsEmpty(Lower(t.category));
    }
    FilterAll(txs, CategoryMatches(""));
  }

  /** Searching the result again with the same query changes nothing. */
  lemma SimpleSearchIdempotent(query: string, txs: seq<Transaction>)
    ensures SimpleSearch(query, SimpleSearch(query, txs)) == SimpleSearch(query, txs)
  {
    FilterIdempotent(txs, CategoryMatches(query));
  }

  /** The query's case does not matter: searching for its lower-cased form
      gives the same rows. */
  lemma SimpleSearchIgnoresCase(query: string, txs: seq<Transaction>)
    ensures SimpleSearch(Lower(query), txs) == SimpleSearch(query, txs)
  {
    LowerIdempotent(query);
    FilterCongruent(txs, CategoryMatches(Lower(query)), CategoryMatches(query));
  }

  /** A row whose category is the query, up to case, is always found. */
  lemma SimpleSearchFindsCategory(query: string, txs: seq<Transaction>, t: Transaction)
    requires t in txs && Lower(t.category) == Lower(query)
    ensures t in SimpleSearch(query, txs)
  {
    ContainsSelf(Lower(query));
  }

  function IsTransfer(t: Transaction): bool { t.category == "Переводы" }

  /** search_physical_transfers: the rows of category "Переводы", in order. */
  function SearchPhysicalTransfers(txs: seq<Transaction>): (r: seq<Transaction>)
    ensures forall t :: t in r <==> t in txs && t.category == "Переводы"
    ensures forall t :: multiset(r)[t] == if t.category == "Переводы" then multiset(txs)[t] else 0
  {
    FilterMembershipAll(txs, IsTransfer);
    FilterCountAll(txs, IsTransfer);
    Filter(txs, IsTransfer)
  }

  /** The transfers keep their order, and the category search for
      "Переводы" finds every one of them. */
  lemma SearchPhysicalTransfersSubsequence(txs: seq<Transaction>)
    ensures IsSubsequence(SearchPhysicalTransfers(txs), txs)
    ensures forall t :: t in SearchPhysicalTransfers(txs) ==> t in SimpleSearch("Переводы", txs)
  {
    FilterIsSubsequence(txs, IsTransfer);
    forall t | t in SearchPhysicalTransfers(txs) ensures t in SimpleSearch("Переводы", txs) {
      SimpleSearchFindsCategory("Переводы", txs, t);
    }
  }

  function HasPhone(t: Transaction): bool { Search(t.description) }

  /** search_phone_numbers: the rows whose description contains a match of
      the phone pattern, in order. */
  function SearchPhoneNumbers(txs: seq<Transaction>): (r: seq<Transaction>)
    ensures forall t :: t in r <==> t in txs && Search(t.description)
    ensures forall t :: multiset(r)[t] == if Search(t.description) then multiset(txs)[t] else 0
  {
    FilterMembershipAll(txs, HasPhone);
    FilterCountAll(txs, HasPhone);
    Filter(txs, HasPhone)
  }

  lemma SearchPhoneNumbersSubsequence(txs: seq<Transaction>)
    ensures IsSubsequence(SearchPhoneNumbers(txs), txs)
  {
    FilterIsSubsequence(txs, HasPhone);
  }

  /** Descriptions that hold fewer than eleven digits, or no four digits in
      a row, are never returned. */
  lemma SearchPhoneNumbersNeedsDigits(txs: seq<Transaction>)
    ensures forall t :: t in SearchPhoneNumbers(txs) ==> DigitsFrom(t.description, 0) >= 11
    ensures forall t :: t in SearchPhoneNumbers(txs) ==> HasFourDigits(t.description)
  {
    forall t | t in SearchPhoneNumbers(txs)
      ensures DigitsFrom(t.description, 0) >= 11 && HasFourDigits(t.description)
    {
      PhoneNeedsElevenDigits(t.description);
      PhoneNeedsFourDigitRun(t.description);
    }
  }
}

=== FILE: sorting.dfy ===
/** Python's `sorted(xs, key=...)` for the keys the source uses: a pair of a
    number and a text, compared lexicographically (`(-x["amount"], x["date"])`
    and the like). `sorted` is stable; so is the insertion sort below. */
module Sorting {
  import opened Seqs
  import opened Text

  datatype SortKey = SortKey(major: int, minor: string)

  /** Tuple order on keys: the number first, the text breaks ties. */
  predicate KeyLe(a: SortKey, b: SortKey)
  {
    a.major < b.major || (a.major == b.major && StrLe(a.minor, b.minor))
  }

  lemma KeyLeTotal(a: SortKey, b: SortKey)
    ensures KeyLe(a, b) || KeyLe(b, a)
  {
    StrLeTotal(a.minor, b.minor);
  }

  lemma KeyLeTransitive(a: SortKey, b: SortKey, c: SortKey)
    requires KeyLe(a, b) && KeyLe(b, c)
    ensures KeyLe(a, c)
  {
    if a.major == b.major == c.major {
      StrLeTransitive(a.minor, b.minor, c.minor);
    }
  }

  /** Non-decreasing by `key`. */
  predicate SortedBy<T>(s: seq<T>, key: T -> SortKey)
  {
    forall i, j :: 0 <= i < j < |s| ==> KeyLe(key(s[i]), key(s[j]))
  }

  /** Puts `x` before the first element whose key is not below its own. */
  function Insert<T>(x: T, s: seq<T>, key: T -> SortKey): (r: seq<T>)
    ensures |r| == |s| + 1
  {
    if s == [] then [x]
    else if KeyLe(key(x), key(s[0])) then [x] + s
    else [s[0]] + Insert(x, s[1..], key)
  }

  /** `sorted(s, key=key)`. */
  function SortBy<T>(s: seq<T>, key: T -> SortKey): (r: seq<T>)
    ensures |r| == |s|
  {
    if s == [] then [] else Insert(s[0], SortBy(s[1..], key), key)
  }

  lemma {:induction false} InsertMultiset<T>(x: T, s: seq<T>, key: T -> SortKey)
    ensures multiset(Insert(x, s, key)) == multiset(s) + multiset{x}
  {
    if s != [] && !KeyLe(key(x), key(s[0])) {
      InsertMultiset(x, s[1..], key);
      assert s == [s[0]] + s[1..];
    }
  }

  lemma {:induction false} InsertSorted<T>(x: T, s: seq<T>, key: T -> SortKey)
    requires SortedBy(s, key)
    ensures SortedBy(Insert(x, s, key), key)
  {
    if s == [] {
    } else if KeyLe(key(x), key(s[0])) {
      var r := Insert(x, s, key);
      assert r == [x] + s;
      forall j | 0 < j < |r| ensures KeyLe(key(r[0]), key(r[j])) {
        assert r[j] == s[j - 1];
        if j > 1 {
          KeyLeTransitive(key(x), key(s[0]), key(s[j - 1]));
        }
      }
    } else {
      var t := Insert(x, s[1..], key);
      InsertSorted(x, s[1..], key);
      InsertMultiset(x, s[1..], key);
      KeyLeTotal(key(x), key(s[0]));
      forall k | 0 <= k < |t| ensures KeyLe(key(s[0]), key(t[k])) {
        assert t[k] in multiset(t);
        if t[k] != x {
          assert t[k] in multiset(s[1..]);
          var j :| 0 <= j < |s[1..]| && s[1..][j] == t[k];
          assert s[j + 1] == t[k];
        }
      }
    }
  }

  /** The result is ordered by the key. */
  lemma {:induction false} SortBySorted<T>(s: seq<T>, key: T -> SortKey)
    ensures SortedBy(SortBy(s, key), key)
  {
    if s != [] {
      SortBySorted(s[1..], key);
      InsertSorted(s[0], SortBy(s[1..], key), key);
    }
  }

  /** The result is a permutation of the input. */
  lemma {:induction false} SortByMultiset<T>(s: seq<T>, key: T -> SortKey)
    ensures multiset(SortBy(s, key)) == multiset(s)
  {
    if s != [] {
      SortByMultiset(s[1..], key);
      InsertMultiset(s[0], SortBy(s[1..], key), key);
      assert s == [s[0]] + s[1..];
    }
  }

  lemma {:induction false} InsertFilterSum<T>(x: T, s: seq<T>, key: T -> SortKey, p: T -> bool, f: T -> int)
    ensures SumBy(Filter(Insert(x, s, key), p), f) == (if p(x) then f(x) else 0) + SumBy(Filter(s, p), f)
  {
    if s != [] && !KeyLe(key(x), key(s[0])) {
      InsertFilterSum(x, s[1..], key, p, f);
    }
  }

  /** Reordering does not change the sum over any subset of the rows. */
  lemma {:induction false} SortByFilterSum<T>(s: seq<T>, key: T -> SortKey, p: T -> bool, f: T -> int)
    ensures SumBy(Filter(SortBy(s, key), p), f) == SumBy(Filter(s, p), f)
  {
    if s != [] {
      SortByFilterSum(s[1..], key, p, f);
      InsertFilterSum(s[0], SortBy(s[1..], key), key, p, f);
    }
  }

  lemma {:induction false} InsertSum<T>(x: T, s: seq<T>, key: T -> SortKey, f: T -> int)
    ensures SumBy(Insert(x, s, key), f) == f(x) + SumBy(s, f)
  {
    if s != [] && !KeyLe(key(x), key(s[0])) {
      InsertSum(x, s[1..], key, f);
    }
  }

  /** Reordering does not change the sum. */
  lemma {:induction false} SortBySum<T>(s: seq<T>, key: T -> SortKey, f: T -> int)
    ensures SumBy(SortBy(s, key), f) == SumBy(s, f)
  {
    if s != [] {
      SortBySum(s[1..], key, f);
      InsertSum(s[0], SortBy(s[1..], key), key, f);
    }
  }

  /** No two elements share a name under `f`. */
  predicate DistinctBy<T>(s: seq<T>, f: T -> string)
  {
    forall i, j :: 0 <= i < j < |s| ==> f(s[i]) != f(s[j])
  }

  lemma {:induction false} InsertDistinct<T>(x: T, s: seq<T>, key: T -> SortKey, f: T -> string)
    requires DistinctBy(s, f) && forall y :: y in s ==> f(y) != f(x)
    ensures DistinctBy(Insert(x, s, key), f)
  {
    if s != [] && !KeyLe(key(x), key(s[0])) {
      var t := Insert(x, s[1..], key);
      InsertDistinct(x, s[1..], key, f);
      InsertMultiset(x, s[1..], key);
      var r := Insert(x, s, key);
      assert r == [s[0]] + t;
      forall k | 0 <= k < |t| ensures f(s[0]) != f(t[k]) {
        assert t[k] in multiset(t);
        if t[k] != x {
          assert t[k] in multiset(s[1..]);
          var j :| 0 <= j < |s[1..]| && s[1..][j] == t[k];
          assert s[j + 1] == t[k];
        }
      }
    } else if s != [] {
      var r := Insert(x, s, key);
      assert r == [x] + s;
      forall j | 1 <= j < |r| ensures f(r[0]) != f(r[j]) {
        assert r[j] == s[j - 1];
      }
    }
  }

  /** Sorting keeps names distinct. */
  lemma {:induction false} SortByDistinct<T>(s: seq<T>, key: T -> SortKey, f: T -> string)
    requires DistinctBy(s, f)
    ensures DistinctBy(SortBy(s, key), f)
  {
    if s != [] {
      SortByDistinct(s[1..], key, f);
      SortByMultiset(s[1..], key);
      forall y | y in SortBy(s[1..], key) ensures f(y) != f(s[0]) {
        assert y in multiset(SortBy(s[1..], key));
        var j :| 0 <= j < |s[1..]| && s[1..][j] == y;
        assert s[j + 1] == y;
      }
      InsertDistinct(s[0], SortBy(s[1..], key), key, f);
    }
  }

  /** The mask "has sort key `k`". */
  function WithKey<T>(key: T -> SortKey, k: SortKey): T -> bool
  {
    (x: T) => key(x) == k
  }

  /** `x` lands before every element of `s` that shares its key. */
  lemma {:induction false} InsertStable<T>(x: T, s: seq<T>, key: T -> SortKey, k: SortKey)
    ensures Filter(Insert(x, s, key), WithKey(key, k))
         == (if key(x) == k then [x] else []) + Filter(s, WithKey(key, k))
  {
    if s != [] && !KeyLe(key(x), key(s[0])) {
      KeyLeTotal(key(x), key(x));
      InsertStable(x, s[1..], key, k);
      assert Insert(x, s, key) == [s[0]] + Insert(x, s[1..], key);
    } else if s != [] {
      assert Insert(x, s, key) == [x] + s;
    }
  }

  /** Stability: the elements that share a key keep their input order. */
  lemma {:induction false} SortByStable<T>(s: seq<T>, key: T -> SortKey, k: SortKey)
    ensures Filter(SortBy(s, key), WithKey(key, k)) == Filter(s, WithKey(key, k))
  {
    if s != [] {
      SortByStable(s[1..], key, k);
      InsertStable(s[0], SortBy(s[1..], key), key, k);
    }
  }

  /** An element of the sorted sequence is an element of the input. */
  lemma SortByMember<T>(s: seq<T>, key: T -> SortKey, x: T)
    ensures x in SortBy(s, key) <==> x in s
  {
    SortByMultiset(s, key);
    assert x in SortBy(s, key) <==> x in multiset(SortBy(s, key));
  }
}

=== FILE: text.dfy ===
/** Text operations the source takes from Python's `str`: `lower()`, the
    substring test `needle in hay`, code-point ordering of strings (used by
    `sorted` keys and by the group order of `groupby`), and zero-padded
    decimal digits (used by `strftime`). */
module Text {

  /** `str.lower()` on one character, for ASCII and the basic Cyrillic
      block (U+0400..U+042F), which is the alphabet of the category names. */
  function LowerChar(c: char): char
  {
    if 'A' <= c <= 'Z' then (c as int + 32) as char
    else if '\U{0410}' <= c <= '\U{042F}' then (c as int + 32) as char
    else if '\U{0400}' <= c <= '\U{040F}' then (c as int + 80) as char
    else c
  }

  /** `s.lower()`. */
  function Lower(s: string): (r: string)
    ensures |r| == |s|
    ensures forall i :: 0 <= i < |s| ==> r[i] == LowerChar(s[i])
  {
    seq(|s|, i requires 0 <= i < |s| => LowerChar(s[i]))
  }

  /** Lower-casing twice is lower-casing once. */
  lemma LowerIdempotent(s: string)
    ensures Lower(Lower(s)) == Lower(s)
  {
    forall i | 0 <= i < |s| ensures LowerChar(LowerChar(s[i])) == LowerChar(s[i]) {
    }
  }

  /** `needle` starts at position `i` of `hay`. */
  predicate OccursAt(hay: string, needle: string, i: int)
  {
    0 <= i && i + |needle| <= |hay| && hay[i..i + |needle|] == needle
  }

  /** Python's `needle in hay` for strings. */
  predicate Contains(hay: string, needle: string)
    ensures Contains(hay, needle) ==> |needle| <= |hay|
  {
    exists i | 0 <= i <= |hay| - |needle| :: OccursAt(hay, needle, i)
  }

  /** The empty string is a substring of every string. */
  lemma ContainsEmpty(hay: string)
    ensures Contains(hay, [])
  {
    assert OccursAt(hay, [], 0);
  }

  /** Every string contains itself. */
  lemma ContainsSelf(hay: string)
    ensures Contains(hay, hay)
  {
    assert OccursAt(hay, hay, 0);
  }

  // ---------------------------------------------------------------------
  // String order: Python compares strings code point by code point, and a
  // proper prefix comes first.

  predicate StrLe(a: string, b: string)
  {
    if a == [] then true
    else if b == [] then false
    else if a[0] != b[0] then a[0] < b[0]
    else StrLe(a[1..], b[1..])
  }

  predicate StrLt(a: string, b: string)
  {
    StrLe(a, b) && a != b
  }

  lemma {:induction false} StrLeTotal(a: string, b: string)
    ensures StrLe(a, b) || StrLe(b, a)
  {
    if a != [] && b != [] && a[0] == b[0] {
      StrLeTotal(a[1..], b[1..]);
    }
  }

  lemma {:induction false} StrLeAntisymmetric(a: string, b: string)
    requires StrLe(a, b) && StrLe(b, a)
    ensures a == b
  {
    if a != [] && b != [] {
      StrLeAntisymmetric(a[1..], b[1..]);
      assert a == [a[0]] + a[1..] && b == [b[0]] + b[1..];
    }
  }

  lemma {:induction false} StrLeTransitive(a: string, b: string, c: string)
    requires StrLe(a, b) && StrLe(b, c)
    ensures StrLe(a, c)
  {
    if a != [] && b != [] && c != [] && a[0] == b[0] && b[0] == c[0] {
      StrLeTransitive(a[1..], b[1..], c[1..]);
    }
  }

  // ---------------------------------------------------------------------
  // Decimal digits, as `strftime` writes them.

  predicate IsDigit(c: char)
  {
    '0' <= c <= '9'
  }

  function DigitChar(n: int): (c: char)
    requires 0 <= n <= 9
    ensures IsDigit(c)
  {
    ('0' as int + n) as char
  }

  /** The last two decimal digits of `n`, zero-padded (`%d`, `%m`). */
  function Pad2(n: int): (r: string)
    ensures |r| == 2 && IsDigit(r[0]) && IsDigit(r[1])
  {
    [DigitChar((n / 10) % 10), DigitChar(n % 10)]
  }

  /** The last four decimal digits of `n`, zero-padded (`%Y`). */
  function Pad4(n: int): (r: string)
    ensures |r| == 4 && forall i :: 0 <= i < 4 ==> IsDigit(r[i])
  {
    Pad2(n / 100) + Pad2(n % 100)
  }

  lemma Pad2Injective(m: int, n: int)
    requires 0 <= m < 100 && 0 <= n < 100
    requires Pad2(m) == Pad2(n)
    ensures m == n
  {
    assert DigitChar((m / 10) % 10) == DigitChar((n / 10) % 10);
    assert DigitChar(m % 10) == DigitChar(n % 10);
  }

  lemma Pad4Injective(m: int, n: int)
    requires 0 <= m < 10000 && 0 <= n < 10000
    requires Pad4(m) == Pad4(n)
    ensures m == n
  {
    assert Pad2(m / 100) == Pad4(m)[..2] == Pad4(n)[..2] == Pad2(n / 100);
    assert Pad2(m % 100) == Pad4(m)[2..] == Pad4(n)[2..] == Pad2(n % 100);
    Pad2Injective(m / 100, n / 100);
    Pad2Injective(m % 100, n % 100);
  }
}

=== FILE: utils.dfy ===
/** The summaries of src/utils.py: the greeting for the hour, the
    month-to-date range, the per-card totals, the list of expenses, and the
    expense and income breakdowns by category. The functions there return
    JSON text built from lists and dictionaries; the model returns those
    lists and records. */
module Utils {
  import opened Seqs
  import opened Text
  import opened Calendar
  import opened Ledger
  import opened Sorting
  import opened Reports

  // ---------------------------------------------------------------------
  // get_greeting

  const Morning: string := "Доброе утро"
  const Afternoon: string := "Добрый день"
  const Evening: string := "Добрый вечер"
  const Night: string := "Доброй ночи"

  /** get_greeting for the current hour, which the caller passes in. */
  function GetGreeting(hour: int): (g: string)
    requires 0 <= hour < 24
    ensures g == Morning <==> 5 <= hour < 12
    ensures g == Afternoon <==> 12 <= hour < 18
    ensures g == Evening <==> 18 <= hour < 23
    ensures g == Night <==> hour < 5 || hour == 23
  {
    if 5 <= hour < 12 then Morning
    else if 12 <= hour < 18 then Afternoon
    else if 18 <= hour < 23 then Evening
    else Night
  }

  // ---------------------------------------------------------------------
  // get_date_range

  datatype DateRange = DateRange(start: DateTime, end: DateTime)

  /** get_date_range: from midnight of the first day of the input's month
      up to the input itself. */
  function GetDateRange(input: DateTime): (r: DateRange)
    requires ValidDateTime(input)
    ensures r.end == input
    ensures ValidDateTime(r.start) && DateTimeLe(r.start, r.end)
    ensures r.start.date.year == input.date.year && r.start.date.month == input.date.month
    ensures r.start.date.day == 1 && r.start.hour == 0 && r.start.minute == 0 && r.start.second == 0
  {
    DateRange(DateTime(Date(input.date.year, input.date.month, 1), 0, 0, 0), input)
  }

  /** The range holds exactly the moments of the input's month that are
      not later than the input. */
  lemma DateRangeMonthToDate(input: DateTime, x: DateTime)
    requires ValidDateTime(input) && ValidDateTime(x)
    ensures var r := GetDateRange(input);
      DateTimeLe(r.start, x) && DateTimeLe(x, r.end)
      <==> x.date.year == input.date.year && x.date.month == input.date.month && DateTimeLe(x, input)
  {
  }

  // ---------------------------------------------------------------------
  // The date window shared by the summaries

  /** The mask `start <= 'Дата операции' <= end`. */
  function Between(start: DateTime, end: DateTime): Transaction -> bool
  {
    (t: Transaction) => DateTimeLe(start, t.when) && DateTimeLe(t.when, end)
  }

  function InRange(txs: seq<Transaction>, start: DateTime, end: DateTime): seq<Transaction>
  {
    Filter(txs, Between(start, end))
  }

  // ---------------------------------------------------------------------
  // get_card_summaries

  /** `{"last_digits": ..., "total_spent": ..., "cashback": ...}`. */
  datatype CardSummary = CardSummary(lastDigits: string, totalSpent: int, cashback: int)

  /** `card[-4:]`: the last four characters, or the whole of a shorter card. */
  function LastDigits(card: string): (r: string)
    ensures |r| == if |card| < 4 then |card| else 4
    ensures r == card[|card| - |r|..]
  {
    if |card| <= 4 then card else card[|card| - 4..]
  }

  /** The card numbers of the rows that have one (`.dropna()`), in row order. */
  function CardsOf(rows: seq<Transaction>): (r: seq<string>)
    ensures forall c :: c in r <==> exists i :: 0 <= i < |rows| && rows[i].card == Some(c)
  {
    if rows == [] then []
    else
      var rest := CardsOf(rows[1..]);
      assert forall i :: 0 < i < |rows| ==> rows[i] == rows[1..][i - 1];
      if rows[0].card.Some? then [rows[0].card.value] + rest else rest
  }

  /** `.unique()`: each value once, at the place it first appears. */
  function Unique(s: seq<string>): (r: seq<string>)
    ensures forall x :: x in r <==> x in s
    ensures forall i, j :: 0 <= i < j < |r| ==> r[i] != r[j]
  {
    if s == [] then []
    else
      var u := Unique(s[..|s| - 1]);
      assert s == s[..|s| - 1] + [s[|s| - 1]];
      if s[|s| - 1] in u then u else u + [s[|s| - 1]]
  }

  /** The mask `'Номер карты' == card`. */
  function OnCard(card: string): Transaction -> bool
  {
    (t: Transaction) => t.card == Some(card)
  }

  /** The summary of one card: the absolute sum of its negative amounts,
      and the sum of its cashback over all its rows. */
  function Summarize(rows: seq<Transaction>, card: string): (r: CardSummary)
    ensures r.lastDigits == LastDigits(card)
    ensures r.totalSpent == TotalSpend(Filter(rows, OnCard(card))) && r.totalSpent >= 0
  {
    var cardRows := Filter(rows, OnCard(card));
    ExpenseRows(cardRows);
    CardSummary(LastDigits(card), Abs(SumBy(Filter(cardRows, IsExpense), Amount)), SumBy(cardRows, Cashback))
  }

  /** One summary per card, in the order of the cards. */
  function CardTable(rows: seq<Transaction>, cards: seq<string>): (r: seq<CardSummary>)
    ensures |r| == |cards|
  {
    seq(|cards|, i requires 0 <= i < |cards| => Summarize(rows, cards[i]))
  }

  function SummarySpent(s: CardSummary): int { s.totalSpent }

  function SummaryCashback(s: CardSummary): int { s.cashback }

  /** The rows that carry a card number (those `.dropna()` keeps). */
  predicate HasCard(t: Transaction) { t.card.Some? }

  /** The rows whose card is one of `cards`. */
  function OnCards(cards: seq<string>): Transaction -> bool
  {
    (t: Transaction) => t.card.Some? && t.card.value in cards
  }

  /** Summaries of distinct cards together hold the spend and the cashback
      of exactly the rows on those cards: no row is counted twice or lost. */
  lemma {:induction false} CardTableConserves(rows: seq<Transaction>, cards: seq<string>)
    requires forall i, j :: 0 <= i < j < |cards| ==> cards[i] != cards[j]
    ensures SumBy(CardTable(rows, cards), SummaryCashback) == SumBy(Filter(rows, OnCards(cards)), Cashback)
    ensures SumBy(CardTable(rows, cards), SummarySpent) == TotalSpend(Filter(rows, OnCards(cards)))
  {
    if cards == [] {
      FilterNone(rows, OnCards(cards));
    } else {
      var c, rest := cards[0], cards[1..];
      assert CardTable(rows, cards) == [Summarize(rows, c)] + CardTable(rows, rest);
      CardTableConserves(rows, rest);
      SumByDisjointUnion(rows, OnCard(c), OnCards(rest), OnCards(cards), Cashback);
      SumByDisjointUnion(rows, OnCard(c), OnCards(rest), OnCards(cards), Spend);
      TotalSpendIsSum(Filter(rows, OnCards(cards)));
      TotalSpendIsSum(Filter(rows, OnCard(c)));
      TotalSpendIsSum(Filter(rows, OnCards(rest)));
    }
  }

  /** get_card_summaries' summaries, one per distinct card, add up to the
      spend and the cashback of all the rows that carry a card. */
  lemma CardSummariesConserve(rows: seq<Transaction>)
    ensures SumBy(CardTable(rows, Unique(CardsOf(rows))), SummaryCashback) == SumBy(Filter(rows, HasCard), Cashback)
    ensures SumBy(CardTable(rows, Unique(CardsOf(rows))), SummarySpent) == TotalSpend(Filter(rows, HasCard))
  {
    var cards := Unique(CardsOf(rows));
    forall i | 0 <= i < |rows| ensures OnCards(cards)(rows[i]) == HasCard(rows[i]) {
      if rows[i].card.Some? {
        assert rows[i].card.value in CardsOf(rows);
      }
    }
    FilterCongruent(rows, OnCards(cards), HasCard);
    CardTableConserves(rows, cards);
  }

  /** The sort key `(-total_spent, last_digits)`. */
  function CardKey(s: CardSummary): SortKey
  {
    SortKey(-s.totalSpent, s.lastDigits)
  }

  /** get_card_summaries: a summary for each distinct card among the rows
      in the window, appended card by card, then sorted by spend
      (largest first) and by last digits. */
  method GetCardSummaries(txs: seq<Transaction>, start: DateTime, end: DateTime) returns (r: seq<CardSummary>)
    ensures SortedBy(r, CardKey)
    ensures multiset(r) == multiset(CardTable(InRange(txs, start, end), Unique(CardsOf(InRange(txs, start, end)))))
    ensures |r| == |Unique(CardsOf(InRange(txs, start, end)))|
    ensures r == SortBy(CardTable(InRange(txs, start, end), Unique(CardsOf(InRange(txs, start, end)))), CardKey)
    ensures forall c :: c in CardsOf(InRange(txs, start, end)) ==> Summarize(InRange(txs, start, end), c) in r
    ensures forall i :: 0 <= i < |r| ==> r[i].totalSpent >= 0
    ensures SumBy(r, SummaryCashback) == SumBy(Filter(InRange(txs, start, end), HasCard), Cashback)
    ensures SumBy(r, SummarySpent) == TotalSpend(Filter(InRange(txs, start, end), HasCard))
  {
    var rows := InRange(txs, start, end);
    var cards := Unique(CardsOf(rows));
    var summaries: seq<CardSummary> := [];
    var k := 0;
    while k < |cards|
      invariant 0 <= k <= |cards|
      invariant summaries == CardTable(rows, cards[..k])
    {
      summaries := summaries + [Summarize(rows, cards[k])];
      k := k + 1;
    }
    assert cards[..k] == cards;
    r := SortBy(summaries, CardKey);
    SortBySorted(summaries, CardKey);
    SortByMultiset(summaries, CardKey);
    forall c | c in CardsOf(rows) ensures Summarize(rows, c) in r {
      var j :| 0 <= j < |cards| && cards[j] == c;
      assert summaries[j] == Summarize(rows, c);
      SortByMember(summaries, CardKey, summaries[j]);
    }
    forall i | 0 <= i < |r| ensures r[i].totalSpent >= 0 {
      SortByMember(summaries, CardKey, r[i]);
    }
    SortBySum(summaries, CardKey, SummaryCashback);
    SortBySum(summaries, CardKey, SummarySpent);
    CardSummariesConserve(rows);
  }

  // ---------------------------------------------------------------------
  // get_top_transactions

  /** `{"date": "DD.MM.YYYY", "amount": ..., "category": ..., "description": ...}`. */
  datatype TopEntry = TopEntry(date: string, amount: int, category: string, description: string)

  function ToTopEntry(t: Transaction): TopEntry
  {
    TopEntry(DayMonthYearText(t.when.date), Abs(t.amount), t.category, t.description)
  }

  /** One entry per row, in row order. */
  function TopTable(rows: seq<Transaction>): (r: seq<TopEntry>)
    ensures |r| == |rows|
  {
    seq(|rows|, i requires 0 <= i < |rows| => ToTopEntry(rows[i]))
  }

  /** The sort key `(-amount, date)`, the date compared as its text. */
  function TopKey(e: TopEntry): SortKey
  {
    SortKey(-e.amount, e.date)
  }

  /** get_top_transactions: an entry for every expense in the window,
      appended row by row, then sorted by amount (largest first) and by
      the "DD.MM.YYYY" text. Nothing is cut off. */
  method GetTopTransactions(txs: seq<Transaction>, start: DateTime, end: DateTime) returns (r: seq<TopEntry>)
    ensures SortedBy(r, TopKey)
    ensures multiset(r) == multiset(TopTable(Filter(InRange(txs, start, end), IsExpense)))
    ensures |r| == |Filter(InRange(txs, start, end), IsExpense)|
    ensures forall t :: t in InRange(txs, start, end) && t.amount < 0 ==> ToTopEntry(t) in r
    ensures forall i :: 0 <= i < |r| ==> r[i].amount > 0
  {
    var rows := Filter(InRange(txs, start, end), IsExpense);
    var entries: seq<TopEntry> := [];
    var k := 0;
    while k < |rows|
      invariant 0 <= k <= |rows|
      invariant entries == TopTable(rows[..k])
      invariant forall i :: 0 <= i < k ==> entries[i].amount > 0
    {
      entries := entries + [ToTopEntry(rows[k])];
      k := k + 1;
    }
    assert rows[..k] == rows;
    r := SortBy(entries, TopKey);
    SortBySorted(entries, TopKey);
    SortByMultiset(entries, TopKey);
    SortedTopEntries(InRange(txs, start, end), entries);
  }

  /** Sorting the entries of the expense rows loses none of them and keeps
      every amount positive. */
  lemma SortedTopEntries(rows: seq<Transaction>, entries: seq<TopEntry>)
    requires entries == TopTable(Filter(rows, IsExpense))
    requires forall i :: 0 <= i < |entries| ==> entries[i].amount > 0
    ensures forall t :: t in rows && t.amount < 0 ==> ToTopEntry(t) in SortBy(entries, TopKey)
    ensures forall i :: 0 <= i < |SortBy(entries, TopKey)| ==> SortBy(entries, TopKey)[i].amount > 0
  {
    var expenses, r := Filter(rows, IsExpense), SortBy(entries, TopKey);
    forall t | t in rows && t.amount < 0 ensures ToTopEntry(t) in r {
      FilterMembership(rows, IsExpense, t);
      var j :| 0 <= j < |expenses| && expenses[j] == t;
      assert entries[j] == ToTopEntry(t);
      SortByMember(entries, TopKey, entries[j]);
    }
    forall i | 0 <= i < |r| ensures r[i].amount > 0 {
      SortByMember(entries, TopKey, r[i]);
    }
  }

  /** Equal amounts are ordered by the "DD.MM.YYYY" text, which compares
      the day first: 02.01.2024 comes before 15.12.2023 although it is the
      later date. */
  lemma TopDateOrderIsTextual()
    ensures var later, earlier := Date(2024, 1, 2), Date(2023, 12, 15);
      && KeyLe(TopKey(TopEntry(DayMonthYearText(later), 100, "", "")), TopKey(TopEntry(DayMonthYearText(earlier), 100, "", "")))
      && !KeyLe(TopKey(TopEntry(DayMonthYearText(earlier), 100, "", "")), TopKey(TopEntry(DayMonthYearText(later), 100, "", "")))
      && DateLe(earlier, later) && earlier != later
  {
    assert DayMonthYearText(Date(2024, 1, 2))[0] == '0';
    assert DayMonthYearText(Date(2023, 12, 15))[0] == '1';
  }

  // ---------------------------------------------------------------------
  // summarize_expenses and summarize_income

  const Other: string := "Остальное"

  /** The order `nlargest` picks in: the larger amount first, and among
      equal amounts the group that comes first, which in a group-by result
      is the smaller category. */
  function RankKey(e: Entry): SortKey
  {
    SortKey(-e.value, e.key)
  }

  /** The groups in `nlargest` order. */
  function Ranked(g: seq<Entry>): seq<Entry>
  {
    SortBy(g, RankKey)
  }

  /** `nlargest(7, ...)`. */
  function Largest(g: seq<Entry>): (r: seq<Entry>)
    ensures |r| == if |g| < 7 then |g| else 7
  {
    if |Ranked(g)| <= 7 then Ranked(g) else Ranked(g)[..7]
  }

  /** The mask `~isin(keys)` on a group-by result. */
  function NotIn(keys: seq<string>): Entry -> bool
  {
    (e: Entry) => e.key !in keys
  }

  /** With seven groups or fewer, `nlargest` picks the key of every group. */
  lemma AllPicked(g: seq<Entry>)
    ensures |g| <= 7 ==> Filter(g, NotIn(Keys(Largest(g)))) == []
  {
    if |g| <= 7 {
      forall i | 0 <= i < |g| ensures !NotIn(Keys(Largest(g)))(g[i]) {
        SortByMember(g, RankKey, g[i]);
        KeysMember(Largest(g), g[i]);
      }
      FilterNone(g, NotIn(Keys(Largest(g))));
    }
  }

  /** What `nlargest` leaves out of `g`, summed: nothing is left with seven
      groups or fewer. */
  function RestSum(g: seq<Entry>): (r: int)
    ensures |g| <= 7 ==> r == 0
  {
    AllPicked(g);
    SumBy(Filter(g, NotIn(Keys(Largest(g)))), Value)
  }

  /** The top groups, followed by an "Остальное" entry for the rest when
      the rest adds up to more than 0. */
  function WithOther(g: seq<Entry>): (r: seq<Entry>)
    ensures |Largest(g)| <= |r| <= 8
    ensures r[..|Largest(g)|] == Largest(g)
    ensures forall e :: e in r ==> e in g || e == Entry(Other, RestSum(g))
    ensures RestSum(g) > 0 <==> Entry(Other, RestSum(g)) in r[|Largest(g)|..]
  {
    LargestMembers(g);
    var other := RestSum(g);
    if other > 0 then Largest(g) + [Entry(Other, other)] else Largest(g)
  }

  /** `nlargest` picks among the groups. */
  lemma LargestMembers(g: seq<Entry>)
    ensures forall e :: e in Largest(g) ==> e in g
    ensures StrictlySorted(g) ==> DistinctBy(Largest(g), Key)
    ensures forall i, j :: 0 <= i < j < |Largest(g)| ==> Largest(g)[i].value >= Largest(g)[j].value
  {
    SortBySorted(g, RankKey);
    if StrictlySorted(g) {
      SortByDistinct(g, RankKey, Key);
    }
    forall e | e in Largest(g) ensures e in g {
      SortByMember(g, RankKey, e);
    }
  }

  /** No group left out by `nlargest` is larger than one it picked. */
  lemma LargestDominates(g: seq<Entry>)
    ensures forall i, e :: 0 <= i < |Largest(g)| && e in g && e.key !in Keys(Largest(g))
              ==> Largest(g)[i].value >= e.value
  {
    var sorted, top := Ranked(g), Largest(g);
    SortBySorted(g, RankKey);
    forall i, e | 0 <= i < |top| && e in g && e.key !in Keys(top) ensures top[i].value >= e.value {
      SortByMember(g, RankKey, e);
      var j :| 0 <= j < |sorted| && sorted[j] == e;
      KeysMember(top, e);
      assert KeyLe(RankKey(sorted[i]), RankKey(sorted[j]));
    }
  }

  /** With distinct keys, the groups whose keys `nlargest` did not pick are
      exactly the tail of the ranking. */
  lemma RestIsTail(g: seq<Entry>)
    requires StrictlySorted(g)
    ensures Filter(Ranked(g), NotIn(Keys(Largest(g)))) == Ranked(g)[|Largest(g)|..]
  {
    var sorted, top := Ranked(g), Largest(g);
    var rest := sorted[|top|..];
    var p := NotIn(Keys(top));
    assert sorted == top + rest;
    SortByDistinct(g, RankKey, Key);
    forall i | 0 <= i < |top| ensures !p(top[i]) {
      assert Keys(top)[i] == top[i].key;
    }
    FilterNone(top, p);
    forall i | 0 <= i < |rest| ensures p(rest[i]) {
      forall k | 0 <= k < |top| ensures top[k].key != rest[i].key {
        assert sorted[k] == top[k] && sorted[|top| + i] == rest[i];
      }
    }
    FilterAll(rest, p);
    FilterAppend(top, rest, p);
  }

  /** `nlargest` and the rest account for every group. */
  lemma LargestTotal(g: seq<Entry>)
    requires StrictlySorted(g)
    ensures SumBy(Largest(g), Value) + RestSum(g) == SumBy(g, Value)
    ensures RestSum(g) == SumBy(Ranked(g)[|Largest(g)|..], Value)
  {
    var sorted, top := Ranked(g), Largest(g);
    assert sorted == top + sorted[|top|..];
    RestIsTail(g);
    SortByFilterSum(g, RankKey, NotIn(Keys(top)), Value);
    SumByAppend(top, sorted[|top|..], Value);
    SortBySum(g, RankKey, Value);
  }

  /** With positive groups, the rest is positive exactly when there are
      more than seven groups, and 0 otherwise. */
  lemma LargestFacts(g: seq<Entry>)
    requires StrictlySorted(g)
    requires forall e :: e in g ==> e.value > 0
    ensures SumBy(Largest(g), Value) + RestSum(g) == SumBy(g, Value)
    ensures RestSum(g) > 0 <==> |g| > 7
    ensures RestSum(g) >= 0
  {
    LargestTotal(g);
    if |g| > 7 {
      var rest := Ranked(g)[7..];
      assert |rest| == |g| - 7;
      forall i | 0 <= i < |rest| ensures Value(rest[i]) > 0 {
        SortByMember(g, RankKey, rest[i]);
      }
      SumByPositive(rest, Value);
    }
  }

  /** The mask `isin(["Наличные", "Переводы"])`. */
  predicate IsCashOrTransfer(t: Transaction)
  {
    t.category == "Наличные" || t.category == "Переводы"
  }

  /** The expense amount column after negation. */
  function Negated(t: Transaction): int { -t.amount }

  /** `{"total_amount": ..., "main": [...], "transfers_and_cash": [...]}`. */
  datatype ExpenseSummary = ExpenseSummary(totalAmount: int, main: seq<Entry>, transfersAndCash: seq<Entry>)

  /** The expense rows in the window, summed per category and negated. */
  function ExpenseGroups(txs: seq<Transaction>, start: DateTime, end: DateTime): seq<Entry>
  {
    GroupSum(Filter(InRange(txs, start, end), IsExpense), Category, Negated)
  }

  /** summarize_expenses: the raw sum of the expenses in the window, the
      seven largest categories by spend plus "Остальное" for the rest, and
      the "Наличные" and "Переводы" categories by spend. */
  function SummarizeExpenses(txs: seq<Transaction>, start: DateTime, end: DateTime): (r: ExpenseSummary)
    ensures r.totalAmount == -TotalSpend(InRange(txs, start, end)) && r.totalAmount <= 0
  {
    var filtered := Filter(InRange(txs, start, end), IsExpense);
    var transfersAndCash := GroupSum(Filter(filtered, IsCashOrTransfer), Category, Negated);
    ExpenseRows(InRange(txs, start, end));
    ExpenseSummary(SumBy(filtered, Amount), WithOther(ExpenseGroups(txs, start, end)), transfersAndCash)
  }

  /** Each category group holds that category's spend in the window, and
      is positive. */
  lemma ExpenseGroupsAreSpend(txs: seq<Transaction>, start: DateTime, end: DateTime)
    ensures StrictlySorted(ExpenseGroups(txs, start, end))
    ensures forall e :: e in ExpenseGroups(txs, start, end) ==>
      e.value == CategorySpend(InRange(txs, start, end), e.key) && e.value > 0
  {
    var filtered := Filter(InRange(txs, start, end), IsExpense);
    GroupSumSorted(filtered, Category, Negated);
    GroupSumEntries(filtered, Category, Negated);
    GroupSumSign(filtered, Category, Negated, false);
    forall e | e in ExpenseGroups(txs, start, end)
      ensures e.value == CategorySpend(InRange(txs, start, end), e.key)
    {
      ExpenseGroupsSpend(InRange(txs, start, end), Negated, e.key);
    }
  }

  /** "main": the largest categories (at most seven, each with its spend),
      then "Остальное" exactly when there are more than seven categories;
      its amounts add up to the total expense. */
  lemma SummarizeExpensesMain(txs: seq<Transaction>, start: DateTime, end: DateTime)
    ensures var r, g := SummarizeExpenses(txs, start, end), ExpenseGroups(txs, start, end);
      && SumBy(r.main, Value) == -r.totalAmount
      && |r.main| == (if |g| <= 7 then |g| else 8)
      && (forall i :: 0 <= i < |r.main| ==> r.main[i].value > 0)
      && (forall i :: 0 <= i < |r.main| && i < 7 ==>
            r.main[i] in g && r.main[i].value == CategorySpend(InRange(txs, start, end), r.main[i].key))
      && (forall i, j :: 0 <= i < j < |r.main| && j < 7 ==> r.main[i].key != r.main[j].key)
      && (forall i, j :: 0 <= i < j < |r.main| && j < 7 ==> r.main[i].value >= r.main[j].value)
      && (|g| > 7 ==> r.main[7].key == Other)
  {
    var g := ExpenseGroups(txs, start, end);
    var r := SummarizeExpenses(txs, start, end);
    ExpenseGroupsAreSpend(txs, start, end);
    LargestMembers(g);
    LargestFacts(g);
    GroupSumTotal(Filter(InRange(txs, start, end), IsExpense), Category, Negated);
    SumByNegated(Filter(InRange(txs, start, end), IsExpense));
    if RestSum(g) > 0 {
      SumByAppend(Largest(g), [Entry(Other, RestSum(g))], Value);
    }
  }

  /** No group outside "main" is larger than one inside it. */
  lemma SummarizeExpensesLargest(txs: seq<Transaction>, start: DateTime, end: DateTime)
    ensures var r, g := SummarizeExpenses(txs, start, end), ExpenseGroups(txs, start, end);
      forall i, e :: 0 <= i < |r.main| && i < 7 && e in g && e.key !in Keys(Largest(g)) ==> r.main[i].value >= e.value
  {
    ExpenseGroupsAreSpend(txs, start, end);
    LargestFacts(ExpenseGroups(txs, start, end));
    LargestDominates(ExpenseGroups(txs, start, end));
  }

  /** "transfers_and_cash" holds only "Наличные" and "Переводы", each with
      its positive spend. */
  lemma SummarizeExpensesTransfers(txs: seq<Transaction>, start: DateTime, end: DateTime)
    ensures forall e :: e in SummarizeExpenses(txs, start, end).transfersAndCash ==>
      (e.key == "Наличные" || e.key == "Переводы")
      && e.value == CategorySpend(InRange(txs, start, end), e.key) && e.value > 0
    ensures forall c :: (
      (c == "Наличные" || c == "Переводы") && CategorySpend(InRange(txs, start, end), c) > 0
      ==> c in Keys(SummarizeExpenses(txs, start, end).transfersAndCash))
    ensures StrictlySorted(SummarizeExpenses(txs, start, end).transfersAndCash)
  {
    var s := InRange(txs, start, end);
    var rows := Filter(Filter(s, IsExpense), IsCashOrTransfer);
    GroupSumSorted(rows, Category, Negated);
    forall c | (c == "Наличные" || c == "Переводы") && CategorySpend(s, c) > 0
      ensures c in Keys(GroupSum(rows, Category, Negated))
    {
      CategorySpendWitness(s, c);
      var i :| 0 <= i < |s| && s[i].category == c && s[i].amount < 0;
      FilterMembership(s, IsExpense, s[i]);
      FilterMembership(Filter(s, IsExpense), IsCashOrTransfer, s[i]);
      var j :| 0 <= j < |rows| && rows[j] == s[i];
      GroupSumKeys(rows, Category, Negated, c);
    }
    forall i | 0 <= i < |rows| ensures Negated(rows[i]) > 0 {
      FilterMembership(Filter(s, IsExpense), IsCashOrTransfer, rows[i]);
    }
    GroupSumEntries(rows, Category, Negated);
    GroupSumSign(rows, Category, Negated, false);
    forall e | e in GroupSum(rows, Category, Negated)
      ensures (e.key == "Наличные" || e.key == "Переводы") && e.value == CategorySpend(s, e.key)
    {
      var i :| 0 <= i < |rows| && rows[i].category == e.key;
      CashOrTransferGroup(Filter(s, IsExpense), e.key);
      ExpenseGroupsSpend(s, Negated, e.key);
    }
  }

  /** A category with spend has an expense row of its own. */
  lemma {:induction false} CategorySpendWitness(s: seq<Transaction>, c: string)
    requires CategorySpend(s, c) > 0
    ensures exists i :: 0 <= i < |s| && s[i].category == c && s[i].amount < 0
  {
    if !(s[0].category == c && s[0].amount < 0) {
      CategorySpendWitness(s[1..], c);
      var i :| 0 <= i < |s[1..]| && s[1..][i].category == c && s[1..][i].amount < 0;
      assert s[i + 1] == s[1..][i];
    }
  }

  /** Dropping the rows of other categories leaves a listed category's sum
      unchanged. */
  lemma {:induction false} CashOrTransferGroup(s: seq<Transaction>, c: string)
    requires c == "Наличные" || c == "Переводы"
    ensures SumWhere(Filter(s, IsCashOrTransfer), Category, Negated, c) == SumWhere(s, Category, Negated, c)
  {
    if s != [] {
      CashOrTransferGroup(s[1..], c);
    }
  }

  lemma {:induction false} SumByNegated(s: seq<Transaction>)
    ensures SumBy(s, Negated) == -SumBy(s, Amount)
  {
    if s != [] {
      SumByNegated(s[1..]);
    }
  }

  /** `{"total_amount": ..., "main": [...]}`. */
  datatype IncomeSummary = IncomeSummary(totalAmount: int, main: seq<Entry>)

  /** The income rows in the window, summed per category. */
  function IncomeGroups(txs: seq<Transaction>, start: DateTime, end: DateTime): seq<Entry>
  {
    GroupSum(Filter(InRange(txs, start, end), IsIncome), Category, Amount)
  }

  /** summarize_income: the sum of the income in the window and its seven
      largest categories; there is no bucket for the rest. */
  function SummarizeIncome(txs: seq<Transaction>, start: DateTime, end: DateTime): (r: IncomeSummary)
    ensures r.totalAmount >= 0
    ensures r.totalAmount == SumBy(IncomeGroups(txs, start, end), Value)
    ensures |r.main| <= 7
  {
    var filtered := Filter(InRange(txs, start, end), IsIncome);
    SumByNonNegative(filtered, Amount);
    GroupSumTotal(filtered, Category, Amount);
    IncomeSummary(SumBy(filtered, Amount), Largest(IncomeGroups(txs, start, end)))
  }

  /** "main" holds the largest income categories, each positive; it adds up
      to the total when there are at most seven categories, and to no more
      than the total otherwise. */
  lemma SummarizeIncomeMain(txs: seq<Transaction>, start: DateTime, end: DateTime)
    ensures var r, g := SummarizeIncome(txs, start, end), IncomeGroups(txs, start, end);
      && |r.main| == (if |g| < 7 then |g| else 7)
      && (forall e :: e in r.main ==> e in g && e.value > 0)
      && (forall i, e :: 0 <= i < |r.main| && e in g && e.key !in Keys(r.main) ==> r.main[i].value >= e.value)
      && DistinctBy(r.main, Key)
      && (forall i, j :: 0 <= i < j < |r.main| ==> r.main[i].value >= r.main[j].value)
      && SumBy(r.main, Value) + SumBy(Ranked(g)[|r.main|..], Value) == r.totalAmount
      && (|g| <= 7 ==> SumBy(r.main, Value) == r.totalAmount)
      && SumBy(r.main, Value) <= r.totalAmount
  {
    var filtered := Filter(InRange(txs, start, end), IsIncome);
    var g := IncomeGroups(txs, start, end);
    GroupSumSorted(filtered, Category, Amount);
    GroupSumSign(filtered, Category, Amount, false);
    LargestMembers(g);
    LargestDominates(g);
    LargestFacts(g);
    LargestTotal(g);
    GroupSumTotal(filtered, Category, Amount);
  }
}
